=== FILE: README.md ===
# Cascaded shadow map: render target, draw calls and render pass

This project is a Dafny model of the cascaded shadow-map core of the SuperTuxKart
Vulkan graphics engine (`GEVulkanShadowFBO` and `GEVulkanShadowDrawCall`). It
proves properties of that model. The model covers:

- the three shadow cascades (Near, Middle, Far) and their compile-time split
  distances;
- the render-target layout `createRTT` builds. This is one depth attachment,
  one attachment reference and one sub-pass per cascade, plus two external
  dependencies per sub-pass, one 2-D view per array layer, and one framebuffer
  over those views;
- the object lifecycle of the constructor, `createRTT` and the destructor. It
  runs against an abstract device that hands out handles, logs every
  create/destroy call, and records any destroy call that names something that is
  not a live object of that kind;
- the per-cascade draw calls: the Far-cascade small-object skip, the
  depth-shader choice, the per-frame reset, and the sub-pass and render pass
  their pipelines are built for;
- the command trace `render` records. It is checked against the Vulkan rules for
  recording a multi-sub-pass render pass instance, which are stated as a small
  state machine.

Modules:

- `Wrappers`: Option and Result.
- `Cascades`: the enum, the split tables and the depth-range bookkeeping in
  `prepare`.
- `Vk`: Vulkan enumerations, create-info records and the abstract device.
- `RttLayout`: the pure descriptions `createRTT` fills in.
- `ShadowDrawCall`: the draw call.
- `ShadowFbo`: the constructor, `createRTT`, `createData`, `addNode`, the
  draw-call part of `prepare`, and the destructor.
- `ShadowRender`: the `render` trace.

Which creation calls the driver rejects is an input (`Driver`). The format the
driver query picks, the shadow size, a node's bounding-box area and the material
manager's lookups are inputs too.

Where a comment in the code and the code itself disagree, the model follows the code:

- The attachments' final layout is DEPTH_STENCIL_READ_ONLY_OPTIMAL, as assigned
  at ge_vulkan_shadow_fbo.cpp:104-105. The comment on the line above those two
  speaks of SHADER_READ_ONLY; the model follows the assignment.

The split tables at ge_vulkan_shadow_fbo.hpp:56-66 make adjacent cascades
overlap (9 < 10 and 40 < 45); `Cascades.NoGapBetweenCascades` states that
overlap. The view ranges `prepare` derives from them do not overlap: they abut
exactly, as `Cascades.ViewRangesAbut` states.

## Model

| member | source | states |
|---|---|---|
| `Cascades.FromIndex` | lib/graphics_engine/src/ge_vulkan_shadow_fbo.hpp:27-33 | The cast of an in-range index to the enum yields the cascade whose value is that index |
| `Cascades.IndexRoundTrip` | lib/graphics_engine/src/ge_vulkan_shadow_fbo.hpp:27-33 | Index and the cast are inverse, so NEAR, MIDDLE and FAR are exactly the values 0 .. COUNT-1 |
| `Cascades.AllCascades` | lib/graphics_engine/src/ge_vulkan_shadow_fbo.hpp:27-33 | The cascade list has COUNT entries, and entry i is the cascade with value i |
| `Cascades.SplitIntervalNonEmpty` | lib/graphics_engine/src/ge_vulkan_shadow_fbo.hpp:56-66 | For every cascade, 0 < split near < split far |
| `Cascades.SplitsIncreasing` | lib/graphics_engine/src/ge_vulkan_shadow_fbo.hpp:56-66 | The split-near and split-far tables are each strictly increasing in the cascade index |
| `Cascades.NoGapBetweenCascades` | lib/graphics_engine/src/ge_vulkan_shadow_fbo.hpp:56-66 | For i >= 1, cascade i starts before cascade i-1 ends, so adjacent cascades overlap |
| `Cascades.CascadesCoverRange` | lib/graphics_engine/src/ge_vulkan_shadow_fbo.hpp:56-66 | Every distance between the first split near and the last split far lies inside some cascade |
| `Cascades.CascadeViewRange` | lib/graphics_engine/src/ge_vulkan_shadow_fbo.cpp:252-257 | vnear is 3.0 for cascade 0 and is never below the split near; vfar is the split far; dznear and dzfar are at least 0 and at least the unclamped distance, and equal one of the two |
| `Cascades.ViewRangesAbut` | lib/graphics_engine/src/ge_vulkan_shadow_fbo.cpp:254-255 | Cascade i's vnear equals cascade i-1's vfar, so the view ranges tile the depth axis |
| `Cascades.DzNearClamp` | lib/graphics_engine/src/ge_vulkan_shadow_fbo.cpp:256 | dznear is clamped to 0 exactly when vnear does not exceed the camera's near plane |
| `RttLayout.Attachments` | lib/graphics_engine/src/ge_vulkan_shadow_fbo.cpp:93-106 | Exactly COUNT attachments. Each is single-sample in the chosen format, cleared on load and stored, has stencil don't-care, starts UNDEFINED and ends DEPTH_STENCIL_READ_ONLY_OPTIMAL |
| `RttLayout.References` | lib/graphics_engine/src/ge_vulkan_shadow_fbo.cpp:111-117 | Exactly COUNT references, and reference i names attachment i in the depth-attachment layout |
| `RttLayout.Subpasses` | lib/graphics_engine/src/ge_vulkan_shadow_fbo.cpp:119-126 | Exactly COUNT graphics sub-passes. None has colour attachments, and sub-pass i's depth attachment is reference i |
| `RttLayout.Dependencies` | lib/graphics_engine/src/ge_vulkan_shadow_fbo.cpp:131-151 | 2·COUNT dependencies: entry 2i enters sub-pass i from EXTERNAL, and entry 2i+1 leaves it to EXTERNAL |
| `RttLayout.DependencyShape` | lib/graphics_engine/src/ge_vulkan_shadow_fbo.cpp:131-151 | Every dependency has exactly one EXTERNAL end, and its other end is sub-pass k/2 |
| `RttLayout.OneEnterOneExitPerSubpass` | lib/graphics_engine/src/ge_vulkan_shadow_fbo.cpp:131-151 | Sub-pass i has exactly one incoming external dependency (index 2i) and exactly one outgoing one (index 2i+1) |
| `RttLayout.DependencySynchronisation` | lib/graphics_engine/src/ge_vulkan_shadow_fbo.cpp:134-150 | Enter: fragment-shader read before early-test depth write. Exit: late-test depth write before fragment-shader read. Both are by region |
| `RttLayout.LayoutWellFormed` | lib/graphics_engine/src/ge_vulkan_shadow_fbo.cpp:153-160 | The assembled render-pass info meets the Vulkan index rules, and sub-pass s writes attachment a iff s == a |
| `RttLayout.LayerViewInfo` | lib/graphics_engine/src/ge_vulkan_shadow_fbo.cpp:173-182 | Layer view i is a 2-D depth view of the shadow image with base layer i, one layer, base mip level 0 and one mip level |
| `RttLayout.LayerViewsPartitionLayers` | lib/graphics_engine/src/ge_vulkan_shadow_fbo.cpp:181-182 | Array layer l is covered by layer view i iff i == l |
| `RttLayout.FramebufferLayout` | lib/graphics_engine/src/ge_vulkan_shadow_fbo.cpp:195-202 | The framebuffer uses the render pass and all layer views as attachments, is size x size, and has one layer |
| `ShadowDrawCall.NewDrawCall` | lib/graphics_engine/src/ge_vulkan_shadow_draw_call.cpp:17-21 | A new draw call holds the given cascade, an empty draw list and no culling set-up |
| `ShadowDrawCall.Skip` | lib/graphics_engine/src/ge_vulkan_shadow_draw_call.cpp:31-37 | Near and Middle never skip a node; Far skips exactly the nodes whose bounding-box area is below 20 |
| `ShadowDrawCall.AddNode` | lib/graphics_engine/src/ge_vulkan_shadow_draw_call.cpp:31-37 | Near and Middle always keep the node. Far keeps it iff its area is at least 20, so area exactly 20 is kept. Otherwise the list is unchanged |
| `ShadowDrawCall.PrepareShadow` | lib/graphics_engine/src/ge_vulkan_shadow_draw_call.cpp:24-28 | The draw list is emptied and the culling tool is set up for the given cascade; the draw call's own cascade is kept |
| `ShadowDrawCall.SubpassForPipelineCreation` | lib/graphics_engine/src/ge_vulkan_shadow_draw_call.hpp:28-30 | The pipeline sub-pass is in range and is the index of the draw call's own cascade |
| `ShadowDrawCall.IsShadow` | lib/graphics_engine/src/ge_vulkan_shadow_draw_call.hpp:21 | A shadow draw call always reports itself as a shadow draw call |
| `ShadowDrawCall.DoDepthOnlyRenderingFirst` | lib/graphics_engine/src/ge_vulkan_shadow_draw_call.hpp:45 | A shadow draw call always asks for depth-only rendering first |
| `ShadowDrawCall.CascadeFixed` | lib/graphics_engine/src/ge_vulkan_shadow_draw_call.hpp:18 | No sequence of addNode / prepareShadow calls changes the cascade fixed at construction |
| `ShadowDrawCall.GetShader` | lib/graphics_engine/src/ge_vulkan_shadow_draw_call.cpp:40-52 | "" if the render info is transparent or the material is transparent. Otherwise the non-PBR fallback when non-empty, else the default shader. Manager lookups are needed only once the render info is opaque |
| `ShadowDrawCall.RenderInfoDecidesFirst` | lib/graphics_engine/src/ge_vulkan_shadow_draw_call.cpp:42-44 | With a transparent render info the result is "" whatever the material manager holds |
| `ShadowDrawCall.ShaderIffOpaque` | lib/graphics_engine/src/ge_vulkan_shadow_draw_call.cpp:45-51 | The shader is non-empty iff both levels are opaque and some candidate name is non-empty; it is always "", the fallback or the default |
| `ShadowFbo.Construct` | lib/graphics_engine/src/ge_vulkan_shadow_fbo.cpp:20-59 | Succeeds iff image and array-view creation both succeed, and throws the image error first. On success the image is size x size with COUNT layers, its full-array view exists, and every other handle is null |
| `ShadowFbo.CreateLayerViews` | lib/graphics_engine/src/ge_vulkan_shadow_fbo.cpp:171-190 | The loop stops with an error at the first rejected layer. Each earlier layer holds a live view of exactly that layer. The rejected layer and later ones are not written |
| `ShadowFbo.CreateFramebuffer` | lib/graphics_engine/src/ge_vulkan_shadow_fbo.cpp:195-207 | Errors iff the driver rejects the framebuffer, and then changes nothing. Otherwise it stores one new framebuffer over the render pass and all views |
| `ShadowFbo.CreateRTT` | lib/graphics_engine/src/ge_vulkan_shadow_fbo.cpp:162-207 | Throws the first rejected step's error. Only adds objects. Keeps size, format, image, array view and draw calls. A rejected render pass changes nothing, and any error leaves the framebuffer untouched |
| `ShadowFbo.CreateRTTComplete` | lib/graphics_engine/src/ge_vulkan_shadow_fbo.cpp:153-207 | When nothing throws, the render pass, every layer view and the framebuffer exist, each built from its layout description |
| `ShadowFbo.CreateRTTAccounts` | lib/graphics_engine/src/ge_vulkan_shadow_fbo.cpp:162-207 | After a complete or partial createRTT, the live objects are the old ones plus exactly the render target's non-null handles, each of the right kind and with distinct views |
| `ShadowFbo.CreateRTTAsWritten` | lib/graphics_engine/src/ge_vulkan_shadow_fbo.cpp:162-165 | As written: after a rejected render pass or framebuffer creation, the member holds the driver's leftover output value |
| `ShadowFbo.AsWrittenAgreesOnNullLeftover` | lib/graphics_engine/src/ge_vulkan_shadow_fbo.cpp:162-207 | On a constructed target (with or without its draw calls), the code as written and the store-on-success form give the same result whenever a rejected call leaves its output null |
| `ShadowFbo.DestroyViews` | lib/graphics_engine/src/ge_vulkan_shadow_fbo.cpp:67-72 | The view loop releases exactly the ids of the non-null views and logs one image-view destroy per non-null view, in order |
| `ShadowFbo.Teardown` | lib/graphics_engine/src/ge_vulkan_shadow_fbo.cpp:62-85 | The destructor releases exactly the render target's non-null handles and logs views, then framebuffer, then render pass |
| `ShadowFbo.ViewDestroysExact` | lib/graphics_engine/src/ge_vulkan_shadow_fbo.cpp:67-72 | The view loop destroys each non-null view as an image view and nothing else; null views are skipped |
| `ShadowFbo.TeardownOrder` | lib/graphics_engine/src/ge_vulkan_shadow_fbo.cpp:67-84 | Destroy calls are ordered views, framebuffer, render pass; none names a null handle; each non-null member is destroyed |
| `ShadowFbo.DestroyViewsSafe` | lib/graphics_engine/src/ge_vulkan_shadow_fbo.cpp:67-72 | Destroying distinct live views never misuses the device |
| `ShadowFbo.TeardownSafe` | lib/graphics_engine/src/ge_vulkan_shadow_fbo.cpp:62-85 | If the render target owns its non-null handles, the destructor never misuses the device |
| `ShadowFbo.TeardownAccounted` | lib/graphics_engine/src/ge_vulkan_shadow_fbo.cpp:62-85 | Tearing down a render target that accounts for its objects restores exactly the device's earlier objects |
| `ShadowFbo.TeardownAfterCreateRTTIsSafe` | lib/graphics_engine/src/ge_vulkan_shadow_fbo.cpp:23-25 | Handles start null, so whatever the driver rejects, the destructor after the store-on-success createRTT destroys exactly what it made and misuses nothing |
| `ShadowFbo.CreateRTTIgnoresDrawCalls` | lib/graphics_engine/src/ge_vulkan_shadow_fbo.cpp:88-219 | `createData` before `createRTT` keeps the starting state, and `createRTT` then makes the same objects and throws the same error, leaving the fresh draw calls in place |
| `ShadowFbo.TeardownSafeAfterCreateDataThenCreateRTT` | lib/graphics_engine/src/ge_vulkan_shadow_fbo.cpp:62-85 | With `createData` run first, teardown after a complete or partial store-on-success `createRTT` still leaves exactly the objects the device had and misuses nothing |
| `ShadowFbo.AsWrittenTeardownDestroysUnownedHandle` | lib/graphics_engine/src/ge_vulkan_shadow_fbo.cpp:162-165 | As written, a rejected render pass with a non-null leftover makes the destructor destroy an object the target never made, or misuse the device |
| `ShadowFbo.AsWrittenTeardownSafeOnNullLeftover` | lib/graphics_engine/src/ge_vulkan_shadow_fbo.cpp:62-85 | With the code as written, teardown after createRTT destroys exactly what was made and misuses nothing whenever rejected calls leave their output null |
| `ShadowFbo.AsWrittenTeardownSafeAfterCreateDataOnNullLeftover` | lib/graphics_engine/src/ge_vulkan_shadow_fbo.cpp:62-85 | With `createData` run first, the code as written also tears down safely whenever rejected calls leave their output null |
| `ShadowFbo.AsWrittenAfterCreateDataDestroysUnownedHandle` | lib/graphics_engine/src/ge_vulkan_shadow_fbo.cpp:162-165 | With `createData` run first, a non-null leftover from a rejected render pass still reaches the destructor: it destroys an object it never made or misuses the device |
| `ShadowFbo.CreateData` | lib/graphics_engine/src/ge_vulkan_shadow_fbo.cpp:211-219 | Draw call i exists for cascade i, with an empty list and no culling set-up; nothing else changes |
| `ShadowFbo.AddNode` | lib/graphics_engine/src/ge_vulkan_shadow_fbo.cpp:412-416 | The node reaches every cascade's list except Far's when its area is below 20; nothing else changes |
| `ShadowFbo.PrepareDrawCalls` | lib/graphics_engine/src/ge_vulkan_shadow_fbo.cpp:407-408 | Every draw call i is emptied and set up to cull for its own cascade i |
| `ShadowFbo.RenderPassForPipelineCreation` | lib/graphics_engine/src/ge_vulkan_shadow_draw_call.cpp:55-60 | Every draw call's pipelines are created against its render target's one render pass, whichever draw call asks |
| `ShadowFbo.ViewRanges` | lib/graphics_engine/src/ge_vulkan_shadow_fbo.cpp:246-257 | COUNT ranges, range i being cascade i's vnear, vfar, dznear = max(vnear - near, 0) and dzfar = max(far - vfar, 0); the first vnear is 3.0 and each later vnear is the previous vfar |
| `ShadowFbo.CascadeWritesItsOwnLayer` | lib/graphics_engine/src/ge_vulkan_shadow_draw_call.cpp:55-60 | Cascade c's pipelines use the one render pass and sub-pass Index(c). That sub-pass writes only attachment Index(c), whose framebuffer view covers only layer Index(c) |
| `ShadowRender.ShadowClears` | lib/graphics_engine/src/ge_vulkan_shadow_fbo.cpp:438-440 | One clear value per cascade, each with depth 1.0 and stencil 0 |
| `ShadowRender.DrawsMatchSubpass` | lib/graphics_engine/src/ge_vulkan_shadow_fbo.cpp:480-483 | In any trace that keeps the render-pass rules, each depth draw is recorded while its pipelines' sub-pass is current |
| `ShadowRender.RecordCascades` | lib/graphics_engine/src/ge_vulkan_shadow_fbo.cpp:473-484 | The loop goes from sub-pass 0 to the last with COUNT-1 advances. It prepares and draws each cascade once in index order, in that cascade's sub-pass, and binds each iff mesh textures are bound at once. Each draw follows its own bind and prepare directly, and the loop records nothing else |
| `ShadowRender.ValidPassAround` | lib/graphics_engine/src/ge_vulkan_shadow_fbo.cpp:436-486 | A loop body going from sub-pass 0 to the last with COUNT-1 advances, enclosed by begin, viewport, scissor and end, is a complete rule-abiding pass that draws each cascade while its own sub-pass is current |
| `ShadowRender.RecordsAround` | lib/graphics_engine/src/ge_vulkan_shadow_fbo.cpp:438-471 | The begin, viewport, scissor and end commands name no cascade, so the trace binds, prepares and draws exactly what its loop body does |
| `ShadowRender.ShapeAround` | lib/graphics_engine/src/ge_vulkan_shadow_fbo.cpp:471-485 | Between the scissor and the end, the trace holds only loop commands, and each draw keeps its own bind and prepare directly before it |
| `ShadowRender.Render` | lib/graphics_engine/src/ge_vulkan_shadow_fbo.cpp:438-485 | Begin over the full target with COUNT depth-1.0 clears, then full viewport and scissor. Then only per-cascade commands: each cascade in index order gets bind (iff supported), prepare and draw, directly in that order, in its own sub-pass, with COUNT-1 advances. Then end |

## Left out

- The light-space perspective (LiSPSM) warp, the camera frustum split points
  and the camera UBO matrix products and inverses in `prepare`
  (ge_vulkan_shadow_fbo.cpp:225-244, 259-405). These are single-precision
  geometry. Only the clamp and selection bookkeeping at lines 252-257 is
  modelled.
- `getShadowProjectionViewMatrix` (ge_vulkan_shadow_fbo.hpp:92-95). It
  multiplies a cascade's projection matrix by the shared view matrix, and that
  product is one of the single-precision matrix computations above.
- `lh->setShadowMatrices`, UBO heap allocation and its `delete []`, and the
  sun node's `grab`/`drop` reference counting. These are memory management and
  calls into code outside this model.
- `generate` and `uploadDynamicData`. They only forward to the base draw call,
  whose implementation is not part of this model.
- `GEVulkanShadowDrawCall::prepare(cam)` and `getEnvDescriptorSet`. Both are
  `assert(false)` (ge_vulkan_shadow_draw_call.hpp:32, 47-51). A member that no
  caller may reach would prove nothing, so they are not modelled.
- Where the base draw call consults `skip`. That code is not part of this
  model. The node is filtered when it is added to the draw list, which is where
  a skipped node's effect becomes visible.
- The `rebind_base_vertex` flag in `render`. It is handed by reference to the
  base class's `renderPipeline`, whose use of it is not visible. Which mesh
  vertices the depth pipelines draw is not modelled either.
- `findSupportedFormat`, `createImage` and `createImageView` internals. The
  chosen format is an input, and the two creations are abstract device
  creations that the driver may reject.
- Destruction of the layered image and its full-array view. The base
  texture's destructor does that, and it is not part of this model.
- The culling tool and the material manager. They appear only as the cascade
  the culling tool is set up for and as two abstract lookups.
- ShadowRender.Render: the `VK_SUBPASS_CONTENTS_INLINE` argument and the
  command buffer handle are not modelled.
- ShadowFbo.CreateRTT: models the store-on-success form of `createRTT`, which writes a handle member only after its creation succeeded. The code as written differs after a rejected render-pass or framebuffer call (see Findings; `ShadowFbo.CreateRTTAsWritten` models that). The two agree whenever the rejected call leaves its output null (`ShadowFbo.AsWrittenAgreesOnNullLeftover`).
- ShadowFbo.CreateFramebuffer: models the store-on-success form. As written, a rejected `vkCreateFramebuffer` leaves the driver's output value in the member.
- ShadowFbo.CreateRTTAccounts: the accounting is proved for the store-on-success form and, through `ShadowFbo.AsWrittenAgreesOnNullLeftover`, for the code as written with null leftovers. It does not hold for the code as written with a non-null leftover (`ShadowFbo.AsWrittenTeardownDestroysUnownedHandle`).
- ShadowFbo.TeardownAfterCreateRTTIsSafe: proved for the store-on-success `createRTT`. For the code as written it holds only when rejected calls leave their output null (`ShadowFbo.AsWrittenTeardownSafeOnNullLeftover`); a non-null leftover breaks it (`ShadowFbo.AsWrittenTeardownDestroysUnownedHandle`, see Findings).
- ShadowFbo.TeardownSafeAfterCreateDataThenCreateRTT: proved for the store-on-success `createRTT`. For the code as written it holds only when rejected calls leave their output null (`ShadowFbo.AsWrittenTeardownSafeAfterCreateDataOnNullLeftover`); a non-null leftover breaks it (`ShadowFbo.AsWrittenAfterCreateDataDestroysUnownedHandle`).
- The skybox renderer header holds only context and is not modelled.
- Floats are modelled as exact reals. Every constant of the split tables is
  exactly representable, so the comparisons between table entries and the
  sign tests of the clamps (`Cascades.DzNearClamp`) carry over to single
  precision. The exact values of `vnear - camNear` and `camFar - vfar`
  (ge_vulkan_shadow_fbo.cpp:256-257) do not: for arbitrary camera planes they
  round.
- RttLayout.LayerViewInfo: the per-layer views and the array view have one mip
  level (`RttLayout.MipLevels`). The code passes `getMipmapLevels()`
  (ge_vulkan_shadow_fbo.cpp:180), whose body is not part of this model. One
  level rests on the constructor setting `m_has_mipmaps = false`
  (ge_vulkan_shadow_fbo.cpp:32).
- ShadowRender.DrawsMatchSubpass: the render-pass rule set is the part of
  the Vulkan rules these commands touch. Pipeline compatibility beyond the
  sub-pass index is not modelled.

## Findings

| source | as written | input that shows it | evidently intended | confidence | as-written member | corrected member |
|---|---|---|---|---|---|---|
| lib/graphics_engine/src/ge_vulkan_shadow_fbo.cpp:162-165 | `vkCreateRenderPass` writes straight into `m_rtt_render_pass`, and the same holds for `vkCreateFramebuffer` into `m_rtt_frame_buffer` at lines 204-207. After a failed call the member holds whatever the driver left in the output parameter, which Vulkan leaves undefined. The destructor then destroys that value if it is non-null | The driver rejects `vkCreateRenderPass` and leaves a non-null value `junk` in the output parameter. The exception propagates, and the destructor calls `vkDestroyRenderPass(junk)`. That either misuses the device or destroys an object the render target never created | Create into a local and store it only on success, as the per-layer view loop does at lines 184-189. The destructor then destroys exactly what was created | medium; not executed | `ShadowFbo.AsWrittenTeardownDestroysUnownedHandle` | `ShadowFbo.TeardownAfterCreateRTTIsSafe` |

=== FILE: cascades.dfy ===
/**
 The fixed set of shadow cascades, their compile-time split distances, and the
 per-cascade depth-range bookkeeping that `prepare` derives from them before the
 light-space warp is computed.

 Single-precision distances are modelled as exact reals. Every constant of the
 tables is exactly representable, so comparisons between table entries and the
 sign tests of the clamps carry over to single precision; the exact values of the
 clamped differences do not, since a subtraction involving arbitrary camera planes
 rounds.
 */
module Cascades {

  /** GVSCC_NEAR = 0, GVSCC_MIDDLE = 1, GVSCC_FAR = 2. */
  datatype Cascade = Near | Middle | Far

  /** GVSCC_COUNT: the bound of every per-cascade array. */
  const Count: nat := 3

  /** The enum's numeric value. */
  function Index(c: Cascade): (i: nat)
    ensures i < Count
  {
    match c
    case Near => 0
    case Middle => 1
    case Far => 2
  }

  /** The cast `(GEVulkanShadowCameraCascade)i` for an in-range index. */
  function FromIndex(i: nat): (c: Cascade)
    requires i < Count
    ensures Index(c) == i
  {
    if i == 0 then Near else if i == 1 then Middle else Far
  }

  /** Index and FromIndex are mutually inverse: the enum values are exactly 0 .. Count-1. */
  lemma IndexRoundTrip(c: Cascade)
    ensures FromIndex(Index(c)) == c
  {
  }

  /** Every cascade, in index order. */
  function AllCascades(): (cs: seq<Cascade>)
    ensures |cs| == Count
    ensures forall i :: 0 <= i < Count ==> Index(cs[i]) == i
  {
    seq(Count, i requires 0 <= i < Count => FromIndex(i))
  }

  /** `cascade_near[]`, indexed by the enum value. */
  const NearTable: seq<real> := [1.0, 9.0, 40.0]

  /** `cascade_far[]`, indexed by the enum value. */
  const FarTable: seq<real> := [10.0, 45.0, 150.0]

  function SplitNear(c: Cascade): real
  {
    NearTable[Index(c)]
  }

  function SplitFar(c: Cascade): real
  {
    FarTable[Index(c)]
  }

  /** Each cascade covers a non-empty distance interval in front of the camera. */
  lemma SplitIntervalNonEmpty(c: Cascade)
    ensures 0.0 < SplitNear(c) < SplitFar(c)
  {
  }

  /** Both split tables strictly increase with the cascade index. */
  lemma SplitsIncreasing(i: nat, j: nat)
    requires i < j < Count
    ensures SplitNear(FromIndex(i)) < SplitNear(FromIndex(j))
    ensures SplitFar(FromIndex(i)) < SplitFar(FromIndex(j))
  {
  }

  /**
   No distance is left uncovered between two adjacent cascades: the next cascade
   starts before the previous one ends, so adjacent cascades overlap.
   */
  lemma NoGapBetweenCascades(i: nat)
    requires 1 <= i < Count
    ensures SplitNear(FromIndex(i)) < SplitFar(FromIndex(i - 1))
  {
  }

  /** The union of the cascades' intervals is the single interval [first near, last far]. */
  lemma {:induction false} CascadesCoverRange(z: real)
    requires SplitNear(Near) <= z <= SplitFar(Far)
    ensures exists c: Cascade :: SplitNear(c) <= z <= SplitFar(c)
  {
    if z <= SplitFar(Near) {
      assert SplitNear(Near) <= z <= SplitFar(Near);
    } else if z <= SplitFar(Middle) {
      NoGapBetweenCascades(1);
      assert SplitNear(Middle) <= z <= SplitFar(Middle);
    } else {
      NoGapBetweenCascades(2);
      assert SplitNear(Far) <= z <= SplitFar(Far);
    }
  }

  /** The unclamped view range of cascade 0 starts here rather than at its split near. */
  const FirstViewNear: real := 3.0

  /**
   The depth bookkeeping of one cascade in `prepare`: the unclamped view range
   (vnear, vfar) and how far it lies inside the camera's own near/far planes.
   */
  datatype ViewRange = ViewRange(vnear: real, vfar: real, dznear: real, dzfar: real)

  function Max(a: real, b: real): real
  {
    if a < b then b else a
  }

  /**
   `vnear` is 3.0 for cascade 0 and the previous cascade's split far otherwise;
   `vfar` is the cascade's own split far; `dznear` and `dzfar` are the distances
   from the camera planes, clamped at zero.
   */
  function CascadeViewRange(c: Cascade, camNear: real, camFar: real): (r: ViewRange)
    ensures c == Near ==> r.vnear == FirstViewNear
    ensures SplitNear(c) <= r.vnear < r.vfar == SplitFar(c)
    ensures r.dznear >= 0.0 && r.dznear >= r.vnear - camNear
    ensures r.dznear == 0.0 || r.dznear == r.vnear - camNear
    ensures r.dzfar >= 0.0 && r.dzfar >= camFar - r.vfar
    ensures r.dzfar == 0.0 || r.dzfar == camFar - r.vfar
  {
    var vnear := if c == Near then FirstViewNear else SplitFar(FromIndex(Index(c) - 1));
    var vfar := SplitFar(c);
    ViewRange(vnear, vfar, Max(vnear - camNear, 0.0), Max(camFar - vfar, 0.0))
  }

  /**
   The unclamped view ranges tile the distance axis: each cascade's range starts
   exactly where the previous one ends, so they neither overlap nor leave a gap.
   */
  lemma ViewRangesAbut(i: nat, camNear: real, camFar: real)
    requires 1 <= i < Count
    ensures CascadeViewRange(FromIndex(i), camNear, camFar).vnear
         == CascadeViewRange(FromIndex(i - 1), camNear, camFar).vfar
  {
  }

  /** The clamp at zero is inactive exactly when the camera plane lies inside the range. */
  lemma DzNearClamp(c: Cascade, camNear: real, camFar: real)
    ensures var r := CascadeViewRange(c, camNear, camFar);
      (r.dznear == 0.0 <==> r.vnear <= camNear)
  {
  }
}

=== FILE: rtt_layout.dfy ===
/**
 The pure part of `createRTT`: the render-pass description (one depth
 attachment, attachment reference and sub-pass per cascade, two external
 dependencies per sub-pass), the per-layer image-view descriptions, and the
 framebuffer description over all layer views.
 */
module RttLayout {
  import opened Cascades
  import opened Vk

  /** The shadow image is created without mipmaps, so every view has one level. */
  const MipLevels: nat := 1

  /** The description every cascade's attachment gets. */
  function DepthAttachment(format: Format): AttachmentDescription
  {
    AttachmentDescription(
      format, SampleCount1,
      LoadOpClear, StoreOpStore,
      LoadOpDontCare, StoreOpDontCare,
      LayoutUndefined, DepthStencilReadOnlyOptimal)
  }

  /** One attachment per cascade, each cleared on load, stored, and left readable by shaders. */
  function Attachments(format: Format): (a: seq<AttachmentDescription>)
    ensures |a| == Count
    ensures forall i :: 0 <= i < |a| ==>
      && a[i].format == format && a[i].samples == 1
      && a[i].loadOp == LoadOpClear && a[i].storeOp == StoreOpStore
      && a[i].stencilLoadOp == LoadOpDontCare && a[i].stencilStoreOp == StoreOpDontCare
      && a[i].initialLayout == LayoutUndefined
      && a[i].finalLayout == DepthStencilReadOnlyOptimal
  {
    var a := seq(Count, i requires 0 <= i < Count => DepthAttachment(format));
    assert forall i :: 0 <= i < |a| ==> a[i] == DepthAttachment(format);
    a
  }

  /** Reference i names attachment i in the depth-attachment layout. */
  function References(): (r: seq<AttachmentReference>)
    ensures |r| == Count
    ensures forall i :: 0 <= i < |r| ==> r[i].attachment == i && r[i].layout == DepthStencilAttachmentOptimal
  {
    seq(Count, i requires 0 <= i < Count => AttachmentReference(i, DepthStencilAttachmentOptimal))
  }

  /** Sub-pass i is a depth-only graphics sub-pass whose depth attachment is reference i. */
  function Subpasses(): (s: seq<SubpassDescription>)
    ensures |s| == Count
    ensures forall i :: 0 <= i < |s| ==>
      s[i].bindPoint == GraphicsBindPoint && s[i].colorAttachmentCount == 0 && s[i].depthStencilRef == i
  {
    seq(Count, i requires 0 <= i < Count => SubpassDescription(GraphicsBindPoint, 0, i))
  }

  /** EXTERNAL -> i: earlier shader reads of the layer finish before sub-pass i writes depth. */
  function EnterDependency(i: nat): SubpassDependency
  {
    SubpassDependency(SubpassExternal, i, FragmentShaderStage, EarlyFragmentTestsStage,
                      ShaderReadAccess, DepthStencilAttachmentWriteAccess, true)
  }

  /** i -> EXTERNAL: sub-pass i's depth writes are visible to later shader reads. */
  function ExitDependency(i: nat): SubpassDependency
  {
    SubpassDependency(i, SubpassExternal, LateFragmentTestsStage, FragmentShaderStage,
                      DepthStencilAttachmentWriteAccess, ShaderReadAccess, true)
  }

  /** Entry 2i enters sub-pass i from outside the pass, entry 2i+1 leaves it. */
  function Dependencies(): (d: seq<SubpassDependency>)
    ensures |d| == 2 * Count
    ensures forall i :: 0 <= i < Count ==> d[2 * i] == EnterDependency(i) && d[2 * i + 1] == ExitDependency(i)
  {
    seq(2 * Count, k requires 0 <= k < 2 * Count =>
      if k % 2 == 0 then EnterDependency(k / 2) else ExitDependency(k / 2))
  }

  function RenderPassLayout(format: Format): RenderPassInfo
  {
    RenderPassInfo(Attachments(format), References(), Subpasses(), Dependencies())
  }

  /**
   The valid-usage rules the Vulkan specification states for
   VkRenderPassCreateInfo that this layout must meet: every reference names an existing
   attachment, every sub-pass's depth reference exists and uses a depth layout,
   and every dependency names an existing sub-pass or EXTERNAL, never both ends
   EXTERNAL.
   */
  ghost predicate WellFormed(info: RenderPassInfo)
  {
    && (forall r :: 0 <= r < |info.references| ==> info.references[r].attachment < |info.attachments|)
    && (forall s :: 0 <= s < |info.subpasses| ==>
          && info.subpasses[s].depthStencilRef < |info.references|
          && info.references[info.subpasses[s].depthStencilRef].layout == DepthStencilAttachmentOptimal)
    && (forall k :: 0 <= k < |info.dependencies| ==>
          && (info.dependencies[k].srcSubpass < |info.subpasses| || info.dependencies[k].srcSubpass == SubpassExternal)
          && (info.dependencies[k].dstSubpass < |info.subpasses| || info.dependencies[k].dstSubpass == SubpassExternal)
          && !(info.dependencies[k].srcSubpass == SubpassExternal && info.dependencies[k].dstSubpass == SubpassExternal))
  }

  /** The sub-pass that writes attachment `a`, through its depth reference. */
  ghost predicate WritesAttachment(info: RenderPassInfo, s: nat, a: nat)
  {
    && s < |info.subpasses|
    && info.subpasses[s].depthStencilRef < |info.references|
    && info.references[info.subpasses[s].depthStencilRef].attachment == a
  }

  /**
   The layout is valid, has one attachment and one sub-pass per cascade, and
   sub-pass i writes attachment i and no other.
   */
  lemma {:induction false} LayoutWellFormed(format: Format)
    ensures var info := RenderPassLayout(format);
      && WellFormed(info)
      && |info.attachments| == |info.subpasses| == Count
      && forall s, a :: 0 <= s < Count && 0 <= a < Count ==> (WritesAttachment(info, s, a) <==> s == a)
  {
    var info := RenderPassLayout(format);
    forall k | 0 <= k < |info.dependencies|
      ensures info.dependencies[k].srcSubpass < |info.subpasses| || info.dependencies[k].srcSubpass == SubpassExternal
      ensures info.dependencies[k].dstSubpass < |info.subpasses| || info.dependencies[k].dstSubpass == SubpassExternal
      ensures !(info.dependencies[k].srcSubpass == SubpassExternal && info.dependencies[k].dstSubpass == SubpassExternal)
    {
      DependencyShape(k);
    }
  }

  /** Every dependency has exactly one EXTERNAL end; its other end is sub-pass k / 2. */
  lemma DependencyShape(k: nat)
    requires k < 2 * Count
    ensures var d := Dependencies()[k];
      if k % 2 == 0 then d.srcSubpass == SubpassExternal && d.dstSubpass == k / 2 < Count
      else d.dstSubpass == SubpassExternal && d.srcSubpass == k / 2 < Count
  {
    var i := k / 2;
    assert k == 2 * i || k == 2 * i + 1;
  }

  /**
   Every sub-pass has exactly one incoming dependency from outside the pass (at
   index 2i) and exactly one outgoing dependency to outside the pass (at 2i+1).
   */
  lemma {:induction false} OneEnterOneExitPerSubpass(i: nat)
    requires i < Count
    ensures var d := Dependencies();
      && (forall k :: 0 <= k < |d| ==> (d[k].srcSubpass == SubpassExternal && d[k].dstSubpass == i <==> k == 2 * i))
      && (forall k :: 0 <= k < |d| ==> (d[k].srcSubpass == i && d[k].dstSubpass == SubpassExternal <==> k == 2 * i + 1))
  {
    var d := Dependencies();
    forall k | 0 <= k < |d|
      ensures d[k].srcSubpass == SubpassExternal && d[k].dstSubpass == i <==> k == 2 * i
      ensures d[k].srcSubpass == i && d[k].dstSubpass == SubpassExternal <==> k == 2 * i + 1
    {
      DependencyShape(k);
    }
  }

  /**
   The enter dependency orders earlier fragment-shader reads before the sub-pass's
   early depth tests write; the exit dependency orders the late depth-test writes
   before later fragment-shader reads. Both are per-region.
   */
  lemma DependencySynchronisation(i: nat)
    requires i < Count
    ensures var d := Dependencies();
      && d[2 * i].srcStage == FragmentShaderStage && d[2 * i].srcAccess == ShaderReadAccess
      && d[2 * i].dstStage == EarlyFragmentTestsStage && d[2 * i].dstAccess == DepthStencilAttachmentWriteAccess
      && d[2 * i + 1].srcStage == LateFragmentTestsStage && d[2 * i + 1].srcAccess == DepthStencilAttachmentWriteAccess
      && d[2 * i + 1].dstStage == FragmentShaderStage && d[2 * i + 1].dstAccess == ShaderReadAccess
      && d[2 * i].byRegion && d[2 * i + 1].byRegion
  {
  }

  /** The 2-D view of array layer `layer` used as framebuffer attachment `layer`. */
  function LayerViewInfo(image: Handle, format: Format, layer: nat): (v: ImageViewInfo)
    ensures v.viewType == ViewType2D && v.baseArrayLayer == layer && v.layerCount == 1
    ensures v.image == image && v.format == format && v.aspect == DepthAspect
    ensures v.baseMipLevel == 0 && v.levelCount == MipLevels
  {
    ImageViewInfo(image, ViewType2D, format, DepthAspect, 0, MipLevels, layer, 1)
  }

  /** Whether a view's sub-resource range includes array layer `layer`. */
  predicate CoversLayer(v: ImageViewInfo, layer: nat)
  {
    v.baseArrayLayer <= layer < v.baseArrayLayer + v.layerCount
  }

  /** Each array layer of the shadow image is covered by exactly one of the per-layer views. */
  lemma LayerViewsPartitionLayers(image: Handle, format: Format, layer: nat, i: nat)
    requires layer < Count && i < Count
    ensures CoversLayer(LayerViewInfo(image, format, i), layer) <==> i == layer
  {
  }

  /** The single framebuffer: all layer views as attachments, the full shadow size, one layer. */
  function FramebufferLayout(renderPass: Handle, views: seq<Handle>, size: nat): (f: FramebufferInfo)
    ensures f.renderPass == renderPass && f.attachments == views
    ensures f.width == size && f.height == size && f.layers == 1
  {
    FramebufferInfo(renderPass, views, size, size, 1)
  }
}

=== FILE: shadow_draw_call.dfy ===
/**
 The per-cascade shadow draw call: which nodes it keeps (small objects are left
 out of the Far cascade), which depth shader a material resolves to, how it is
 reset each frame, and which sub-pass its pipelines are created for.

 The material manager is an abstract pair of lookups (material type to shader
 name, shader name to material entry); a node's bounding-box area is an input.
 */
module ShadowDrawCall {
  import opened Wrappers
  import opened Cascades

  /** The per-material render info; only its transparency matters here. */
  datatype RenderInfo = RenderInfo(transparent: bool)

  datatype Material = Material(materialType: nat, renderInfo: Option<RenderInfo>)

  /** What the material manager knows about a shader. */
  datatype MaterialEntry = MaterialEntry(transparent: bool, nonpbrFallback: string)

  datatype MaterialManager = MaterialManager(shaderOf: map<nat, string>, materials: map<string, MaterialEntry>)

  /** A scene node, referred to by id; its owner is the scene graph. */
  datatype Node = Node(id: nat, area: real, material: Material)

  /**
   A shadow draw call. `cascade` is fixed at construction; `nodes` is the frame's
   draw list; `cullingCascade` is the cascade the culling tool was last set up for.
   */
  datatype DrawCall = DrawCall(cascade: Cascade, nodes: seq<Node>, cullingCascade: Option<Cascade>)

  /** Objects whose bounding-box area is below this do not cast Far-cascade shadows. */
  const SmallObjectArea: real := 20.0

  function NewDrawCall(c: Cascade): (dc: DrawCall)
    ensures dc.cascade == c && dc.nodes == [] && dc.cullingCascade == None
  {
    DrawCall(c, [], None)
  }

  /** Near and Middle never skip; Far skips exactly the nodes whose area is below 20. */
  function Skip(dc: DrawCall, node: Node): (r: bool)
    ensures dc.cascade != Far ==> !r
    ensures dc.cascade == Far ==> (r <==> node.area < SmallObjectArea)
  {
    dc.cascade == Far && node.area < SmallObjectArea
  }

  /**
   Adding a node keeps it unless it is skipped: every node reaches the Near and
   Middle lists, and the Far list exactly when its area is at least 20.
   */
  function AddNode(dc: DrawCall, node: Node): (r: DrawCall)
    ensures r.cascade == dc.cascade && r.cullingCascade == dc.cullingCascade
    ensures r.nodes == dc.nodes || r.nodes == dc.nodes + [node]
    ensures dc.cascade != Far ==> r.nodes == dc.nodes + [node]
    ensures dc.cascade == Far ==> (r.nodes == dc.nodes + [node] <==> node.area >= SmallObjectArea)
  {
    if Skip(dc, node) then dc else dc.(nodes := dc.nodes + [node])
  }

  /** The draw list is emptied first, then the culling tool is set up for `cc`. */
  function PrepareShadow(dc: DrawCall, cc: Cascade): (r: DrawCall)
    ensures r.cascade == dc.cascade && r.nodes == [] && r.cullingCascade == Some(cc)
  {
    var reset := dc.(nodes := []);
    reset.(cullingCascade := Some(cc))
  }

  /** The sub-pass this draw call's pipelines are created for: its own cascade's. */
  function SubpassForPipelineCreation(dc: DrawCall): (r: nat)
    ensures r < Count && FromIndex(r) == dc.cascade
  {
    Index(dc.cascade)
  }

  function IsShadow(dc: DrawCall): (r: bool)
    ensures r
  {
    true
  }

  function DoDepthOnlyRenderingFirst(dc: DrawCall): (r: bool)
    ensures r
  {
    true
  }

  /** The operations a draw call undergoes after construction. */
  datatype Op = AddNodeOp(node: Node) | PrepareShadowOp(cc: Cascade)

  function Apply(dc: DrawCall, ops: seq<Op>): DrawCall
    decreases |ops|
  {
    if |ops| == 0 then dc
    else
      var next := match ops[0]
        case AddNodeOp(n) => AddNode(dc, n)
        case PrepareShadowOp(cc) => PrepareShadow(dc, cc);
      Apply(next, ops[1..])
  }

  /** The cascade is fixed at construction: no sequence of operations changes it. */
  lemma {:induction false} CascadeFixed(dc: DrawCall, ops: seq<Op>)
    ensures Apply(dc, ops).cascade == dc.cascade
    decreases |ops|
  {
    if |ops| > 0 {
      var next := match ops[0]
        case AddNodeOp(n) => AddNode(dc, n)
        case PrepareShadowOp(cc) => PrepareShadow(dc, cc);
      CascadeFixed(next, ops[1..]);
    }
  }

  predicate RenderInfoTransparent(m: Material)
  {
    m.renderInfo.Some? && m.renderInfo.value.transparent
  }

  /** Both manager lookups `getShader` dereferences succeed. */
  predicate Resolvable(m: Material, mgr: MaterialManager)
  {
    m.materialType in mgr.shaderOf && mgr.shaderOf[m.materialType] in mgr.materials
  }

  function DefaultShader(m: Material, mgr: MaterialManager): string
    requires Resolvable(m, mgr)
  {
    mgr.shaderOf[m.materialType]
  }

  function Entry(m: Material, mgr: MaterialManager): MaterialEntry
    requires Resolvable(m, mgr)
  {
    mgr.materials[DefaultShader(m, mgr)]
  }

  /**
   The depth shader for a material; "" means the material casts no shadow. A
   transparent render info decides before any lookup, so the manager need not
   know the material in that case.
   */
  function GetShader(m: Material, mgr: MaterialManager): (r: string)
    requires RenderInfoTransparent(m) || Resolvable(m, mgr)
    ensures RenderInfoTransparent(m) ==> r == ""
    ensures !RenderInfoTransparent(m) && Entry(m, mgr).transparent ==> r == ""
    ensures !RenderInfoTransparent(m) && !Entry(m, mgr).transparent ==>
      (Entry(m, mgr).nonpbrFallback != "" ==> r == Entry(m, mgr).nonpbrFallback) &&
      (Entry(m, mgr).nonpbrFallback == "" ==> r == DefaultShader(m, mgr))
  {
    if RenderInfoTransparent(m) then ""
    else
      var shader := mgr.shaderOf[m.materialType];
      var material := mgr.materials[shader];
      if material.transparent then ""
      else if material.nonpbrFallback != "" then material.nonpbrFallback
      else shader
  }

  /** With a transparent render info the result does not depend on the material manager at all. */
  lemma RenderInfoDecidesFirst(m: Material, mgr1: MaterialManager, mgr2: MaterialManager)
    requires RenderInfoTransparent(m)
    ensures GetShader(m, mgr1) == GetShader(m, mgr2) == ""
  {
  }

  /**
   A material resolves to a shader exactly when it is opaque at both levels and
   some candidate name is non-empty; the shader is then its fallback or its default.
   */
  lemma ShaderIffOpaque(m: Material, mgr: MaterialManager)
    requires Resolvable(m, mgr)
    ensures var r := GetShader(m, mgr);
      && (r != "" <==> !RenderInfoTransparent(m) && !Entry(m, mgr).transparent
                       && (Entry(m, mgr).nonpbrFallback != "" || DefaultShader(m, mgr) != ""))
      && (r == "" || r == Entry(m, mgr).nonpbrFallback || r == DefaultShader(m, mgr))
  {
  }
}

=== FILE: shadow_fbo.dfy ===
/**
 The shadow render target: a layered depth image with one layer per cascade,
 its full-array view, a render pass with one sub-pass per cascade, one 2-D view
 per layer, a framebuffer over those views, and one draw call per cascade.

 Vulkan object creation is the abstract `Device` of module Vk; which creation
 calls the driver rejects is the `Driver` parameter.
 */
module ShadowFbo {
  import opened Wrappers
  import opened Cascades
  import opened Vk
  import opened RttLayout
  import DC = ShadowDrawCall

  /** The runtime errors the constructor and `createRTT` throw. */
  datatype Error =
    | ImageCreationFailed
    | ImageViewCreationFailed
    | RenderPassCreationFailed
    | LayerViewCreationFailed(layer: nat)
    | FramebufferCreationFailed

  /** The creation calls the subsystem makes, in the order it makes them. */
  datatype Step = ImageStep | ArrayViewStep | RenderPassStep | LayerViewStep(layer: nat) | FramebufferStep

  /**
   The driver's behaviour: the creation calls it rejects, and the value a rejected
   call leaves in its output parameter (the Vulkan specification leaves that value
   undefined after a runtime error).
   */
  datatype Driver = Driver(failing: set<Step>, leftover: Handle)

  datatype Fbo = Fbo(
    size: nat,
    format: Format,
    image: Handle,
    arrayView: Handle,
    renderPass: Handle,
    framebuffer: Handle,
    layerViews: seq<Handle>,
    drawCalls: seq<DC.DrawCall>)
  {
    /** `createData` has run: draw call i exists and belongs to cascade i. */
    predicate DrawCallsReady()
    {
      |drawCalls| == Count && forall i :: 0 <= i < Count ==> drawCalls[i].cascade == FromIndex(i)
    }

    /** The per-cascade arrays have their fixed sizes. */
    predicate Valid()
    {
      |layerViews| == Count && (drawCalls == [] || DrawCallsReady())
    }
  }

  datatype Sys = Sys(fbo: Fbo, dev: Device)

  /** The state after an operation that may throw part-way, and what it threw. */
  datatype Attempt = Attempt(sys: Sys, error: Option<Error>)

  /** The full-array view the constructor creates for sampling. */
  function ArrayViewInfo(image: Handle, format: Format): ImageViewInfo
  {
    ImageViewInfo(image, ViewType2DArray, format, DepthAspect, 0, MipLevels, 0, Count)
  }

  /** `h` is a live object of the device created from `info`. */
  ghost predicate IsObject(d: Device, h: Handle, info: ObjectInfo)
  {
    h.Live? && h.id in d.live && d.live[h.id] == info
  }

  /**
   The state `createRTT` starts from: image and array view exist, and the render
   pass, framebuffer and layer views are still null. Whether `createData` has run
   is left open: neither `createRTT` nor the destructor reads the draw calls.
   */
  ghost predicate Constructed(s: Sys)
  {
    && s.dev.Valid()
    && s.fbo.Valid()
    && s.fbo.renderPass == Null
    && s.fbo.framebuffer == Null
    && (forall i :: 0 <= i < Count ==> s.fbo.layerViews[i] == Null)
    && IsObject(s.dev, s.fbo.image, ImageObject(s.fbo.size, s.fbo.size, Count, s.fbo.format))
    && IsObject(s.dev, s.fbo.arrayView, ImageViewObject(ArrayViewInfo(s.fbo.image, s.fbo.format)))
  }

  /**
   The constructor: a `size` x `size` image with one layer per cascade in the
   format the driver query picked, then its full-array view. Either creation
   failing throws, in that order.
   */
  function Construct(dev: Device, driver: Driver, size: nat, format: Format): (r: Result<Sys, Error>)
    requires dev.Valid()
    ensures r.Success? <==> ImageStep !in driver.failing && ArrayViewStep !in driver.failing
    ensures ImageStep in driver.failing ==> r == Failure(ImageCreationFailed)
    ensures ImageStep !in driver.failing && ArrayViewStep in driver.failing ==> r == Failure(ImageViewCreationFailed)
    ensures r.Success? ==>
      && Constructed(r.value)
      && r.value.fbo.drawCalls == []
      && r.value.fbo.size == size && r.value.fbo.format == format
      && r.value.dev.misused == dev.misused
      && (forall id :: id in dev.live ==> id in r.value.dev.live && r.value.dev.live[id] == dev.live[id])
  {
    if ImageStep in driver.failing then Failure(ImageCreationFailed)
    else
      var image := dev.NextHandle();
      var dev1 := dev.Create(ImageObject(size, size, Count, format));
      if ArrayViewStep in driver.failing then Failure(ImageViewCreationFailed)
      else
        var view := dev1.NextHandle();
        var dev2 := dev1.Create(ImageViewObject(ArrayViewInfo(image, format)));
        Success(Sys(Fbo(size, format, image, view, Null, Null, seq(Count, _ => Null), []), dev2))
  }

  /** The first layer at or after `i` whose view creation the driver rejects, or Count. */
  function FirstFailingLayer(driver: Driver, i: nat): (f: nat)
    requires i <= Count
    ensures i <= f <= Count
    ensures f < Count ==> LayerViewStep(f) in driver.failing
    ensures forall j :: i <= j < f ==> LayerViewStep(j) !in driver.failing
    decreases Count - i
  {
    if i == Count then Count
    else if LayerViewStep(i) in driver.failing then i
    else FirstFailingLayer(driver, i + 1)
  }

  /** The error `createRTT` throws under `driver`, if any: its first rejected step. */
  function RttFailure(driver: Driver): Option<Error>
  {
    var f := FirstFailingLayer(driver, 0);
    if RenderPassStep in driver.failing then Some(RenderPassCreationFailed)
    else if f < Count then Some(LayerViewCreationFailed(f))
    else if FramebufferStep in driver.failing then Some(FramebufferCreationFailed)
    else None
  }

  /** Layer view `j` of the state is a live 2-D view of exactly array layer `j`. */
  ghost predicate HasLayerView(s: Sys, j: nat)
    requires |s.fbo.layerViews| == Count && j < Count
  {
    IsObject(s.dev, s.fbo.layerViews[j], ImageViewObject(LayerViewInfo(s.fbo.image, s.fbo.format, j)))
  }

  /** Creation only adds objects: everything that existed still exists unchanged. */
  ghost predicate Extends(d0: Device, d1: Device)
  {
    && d0.nextId <= d1.nextId
    && d1.misused == d0.misused
    && forall id :: id in d0.live ==> id in d1.live && d1.live[id] == d0.live[id]
  }

  /**
   The per-layer loop of `createRTT` from layer `i` on. View j is stored only
   after its creation succeeded; the first rejected layer stops the loop with an
   error and leaves that layer and all later ones untouched.
   */
  function CreateLayerViews(s: Sys, driver: Driver, i: nat): (o: Attempt)
    requires s.fbo.Valid() && s.dev.Valid() && i <= Count
    ensures o.sys.fbo.Valid() && o.sys.dev.Valid() && Extends(s.dev, o.sys.dev)
    ensures o.sys.fbo == s.fbo.(layerViews := o.sys.fbo.layerViews)
    ensures var f := FirstFailingLayer(driver, i);
      && o.error == (if f < Count then Some(LayerViewCreationFailed(f)) else None)
      && (forall j :: 0 <= j < Count && (j < i || f <= j) ==> o.sys.fbo.layerViews[j] == s.fbo.layerViews[j])
      && (forall j :: i <= j < f ==> HasLayerView(o.sys, j))
    decreases Count - i
  {
    if i == Count then Attempt(s, None)
    else if LayerViewStep(i) in driver.failing then Attempt(s, Some(LayerViewCreationFailed(i)))
    else
      var view := s.dev.NextHandle();
      var dev1 := s.dev.Create(ImageViewObject(LayerViewInfo(s.fbo.image, s.fbo.format, i)));
      CreateLayerViews(Sys(s.fbo.(layerViews := s.fbo.layerViews[i := view]), dev1), driver, i + 1)
  }

  /** Every object `createRTT` makes exists, built from the layout descriptions. */
  ghost predicate RttComplete(s: Sys)
    requires s.fbo.Valid()
  {
    && IsObject(s.dev, s.fbo.renderPass, RenderPassObject(RenderPassLayout(s.fbo.format)))
    && (forall j :: 0 <= j < Count ==> HasLayerView(s, j))
    && IsObject(s.dev, s.fbo.framebuffer,
                FramebufferObject(FramebufferLayout(s.fbo.renderPass, s.fbo.layerViews, s.fbo.size)))
  }

  /** The last step of `createRTT`: one framebuffer over the render pass and every layer view. */
  function CreateFramebuffer(s: Sys, driver: Driver): (o: Attempt)
    requires s.fbo.Valid() && s.dev.Valid()
    ensures o.error == (if FramebufferStep in driver.failing then Some(FramebufferCreationFailed) else None)
    ensures o.sys.fbo == s.fbo.(framebuffer := o.sys.fbo.framebuffer)
    ensures o.sys.dev.Valid() && Extends(s.dev, o.sys.dev)
    ensures o.error.Some? ==> o.sys == s
    ensures o.error.None? ==>
      && o.sys.fbo.framebuffer == s.dev.NextHandle()
      && o.sys.dev == s.dev.Create(FramebufferObject(FramebufferLayout(s.fbo.renderPass, s.fbo.layerViews, s.fbo.size)))
  {
    if FramebufferStep in driver.failing then Attempt(s, Some(FramebufferCreationFailed))
    else
      var info := FramebufferLayout(s.fbo.renderPass, s.fbo.layerViews, s.fbo.size);
      Attempt(Sys(s.fbo.(framebuffer := s.dev.NextHandle()), s.dev.Create(FramebufferObject(info))), None)
  }

  /**
   `createRTT`: the render pass, then one view per layer, then the framebuffer;
   the first rejected creation throws. A handle member is written only once its
   creation has succeeded (see CreateRTTAsWritten for what the code does instead).
   */
  function CreateRTT(s: Sys, driver: Driver): (o: Attempt)
    requires s.fbo.Valid() && s.dev.Valid()
    ensures o.error == RttFailure(driver)
    ensures o.sys.fbo.Valid() && o.sys.dev.Valid() && Extends(s.dev, o.sys.dev)
    ensures o.sys.fbo.size == s.fbo.size && o.sys.fbo.format == s.fbo.format
    ensures o.sys.fbo.image == s.fbo.image && o.sys.fbo.arrayView == s.fbo.arrayView
    ensures o.sys.fbo.drawCalls == s.fbo.drawCalls
    ensures o.error == Some(RenderPassCreationFailed) ==> o.sys == s
    ensures o.error.Some? ==> o.sys.fbo.framebuffer == s.fbo.framebuffer
  {
    if RenderPassStep in driver.failing then Attempt(s, Some(RenderPassCreationFailed))
    else
      var rp := s.dev.NextHandle();
      var s1 := Sys(s.fbo.(renderPass := rp), s.dev.Create(RenderPassObject(RenderPassLayout(s.fbo.format))));
      var v := CreateLayerViews(s1, driver, 0);
      if v.error.Some? then v else CreateFramebuffer(v.sys, driver)
  }

  /** When `createRTT` does not throw, every object it makes exists, built from the layout descriptions. */
  lemma CreateRTTComplete(s: Sys, driver: Driver)
    requires s.fbo.Valid() && s.dev.Valid()
    ensures var o := CreateRTT(s, driver);
      o.error.None? ==> RttComplete(o.sys)
  {
    var o := CreateRTT(s, driver);
    if o.error.None? {
      var s1 := Sys(s.fbo.(renderPass := s.dev.NextHandle()), s.dev.Create(RenderPassObject(RenderPassLayout(s.fbo.format))));
      var v := CreateLayerViews(s1, driver, 0);
      assert IsObject(s1.dev, s1.fbo.renderPass, RenderPassObject(RenderPassLayout(s.fbo.format)));
      assert IsObject(v.sys.dev, v.sys.fbo.renderPass, RenderPassObject(RenderPassLayout(s.fbo.format)));
      assert forall j :: 0 <= j < Count ==> HasLayerView(v.sys, j);
      assert o == CreateFramebuffer(v.sys, driver);
      forall j | 0 <= j < Count
        ensures HasLayerView(o.sys, j)
      {
        assert HasLayerView(v.sys, j);
      }
    }
  }

  /**
   `createRTT` as written: vkCreateRenderPass and vkCreateFramebuffer write straight
   into the member, so after a rejected call the member holds whatever the driver
   left in the output parameter.
   */
  function CreateRTTAsWritten(s: Sys, driver: Driver): (o: Attempt)
    requires s.fbo.Valid() && s.dev.Valid()
    ensures o.error == RttFailure(driver)
    ensures o.error == Some(RenderPassCreationFailed) ==> o.sys.fbo.renderPass == driver.leftover
    ensures o.error == Some(FramebufferCreationFailed) ==> o.sys.fbo.framebuffer == driver.leftover
  {
    var o := CreateRTT(s, driver);
    if o.error == Some(RenderPassCreationFailed) then
      Attempt(o.sys.(fbo := o.sys.fbo.(renderPass := driver.leftover)), o.error)
    else if o.error == Some(FramebufferCreationFailed) then
      Attempt(o.sys.(fbo := o.sys.fbo.(framebuffer := driver.leftover)), o.error)
    else o
  }

  /**
   When every rejected creation leaves a null output, the code as written and the
   store-on-success form agree on a freshly constructed render target.
   */
  lemma AsWrittenAgreesOnNullLeftover(s: Sys, failing: set<Step>)
    requires Constructed(s)
    ensures CreateRTTAsWritten(s, Driver(failing, Null)) == CreateRTT(s, Driver(failing, Null))
  {
    var o := CreateRTT(s, Driver(failing, Null));
    if o.error == Some(RenderPassCreationFailed) {
      assert o.sys == s;
    }
  }

  // ---------------------------------------------------------------------------
  // Teardown

  function HandleIds(h: Handle): set<nat>
  {
    if h.Live? then {h.id} else {}
  }

  /** The ids of the non-null handles of a sequence. */
  function IdsOf(hs: seq<Handle>): set<nat>
    decreases |hs|
  {
    if |hs| == 0 then {} else HandleIds(hs[0]) + IdsOf(hs[1..])
  }

  /** The ids of the objects `createRTT` stores in the render target. */
  function RttIds(f: Fbo): set<nat>
  {
    IdsOf(f.layerViews) + HandleIds(f.framebuffer) + HandleIds(f.renderPass)
  }

  /** The order the destructor must respect: views, then framebuffer, then render pass. */
  function Rank(k: Kind): nat
  {
    match k
    case ImageViewKind => 0
    case FramebufferKind => 1
    case RenderPassKind => 2
    case ImageKind => 3
  }

  /** The destroy calls for the non-null entries of `views`, in order. */
  function ViewDestroys(views: seq<Handle>): seq<Event>
    decreases |views|
  {
    if |views| == 0 then []
    else (if views[0].Live? then [Destroyed(ImageViewKind, views[0])] else []) + ViewDestroys(views[1..])
  }

  /** Removing two key sets one after the other removes their union. */
  lemma RemoveTwice<K, V>(m: map<K, V>, a: set<K>, b: set<K>)
    ensures (m - a) - b == m - (a + b)
  {
    assert ((m - a) - b).Keys == (m - (a + b)).Keys;
  }

  /** The destructor's loop over the per-layer views: destroy each non-null one, in order. */
  function DestroyViews(d: Device, views: seq<Handle>): (r: Device)
    ensures r.nextId == d.nextId && r.live == d.live - IdsOf(views)
    ensures r.log == d.log + ViewDestroys(views)
    decreases |views|
  {
    if |views| == 0 then d
    else
      var d1 := if views[0].Live? then d.Destroy(ImageViewKind, views[0]) else d;
      var r := DestroyViews(d1, views[1..]);
      var first: seq<Event> := if views[0].Live? then [Destroyed(ImageViewKind, views[0])] else [];
      assert d1.live == d.live - HandleIds(views[0]) && d1.log == d.log + first && d1.nextId == d.nextId;
      RemoveTwice(d.live, HandleIds(views[0]), IdsOf(views[1..]));
      assert ViewDestroys(views) == first + ViewDestroys(views[1..]);
      assert (d.log + first) + ViewDestroys(views[1..]) == d.log + (first + ViewDestroys(views[1..]));
      r
  }

  /** The calls the destructor makes for a render target, in order. */
  function TeardownEvents(f: Fbo): seq<Event>
  {
    ViewDestroys(f.layerViews)
    + (if f.framebuffer.Live? then [Destroyed(FramebufferKind, f.framebuffer)] else [])
    + (if f.renderPass.Live? then [Destroyed(RenderPassKind, f.renderPass)] else [])
  }

  /** The destructor: per-layer views, then the framebuffer, then the render pass, skipping null handles. */
  function Teardown(s: Sys): (d: Device)
    ensures d.nextId == s.dev.nextId && d.live == s.dev.live - RttIds(s.fbo)
    ensures d.log == s.dev.log + TeardownEvents(s.fbo)
  {
    var d1 := DestroyViews(s.dev, s.fbo.layerViews);
    var d2 := if s.fbo.framebuffer.Live? then d1.Destroy(FramebufferKind, s.fbo.framebuffer) else d1;
    if s.fbo.renderPass.Live? then d2.Destroy(RenderPassKind, s.fbo.renderPass) else d2
  }

  /** The view loop destroys exactly the non-null views, each as an image view. */
  lemma {:induction false} ViewDestroysExact(views: seq<Handle>)
    ensures forall k :: 0 <= k < |ViewDestroys(views)| ==>
      && ViewDestroys(views)[k].Destroyed?
      && ViewDestroys(views)[k].kind == ImageViewKind
      && ViewDestroys(views)[k].handle.Live?
      && ViewDestroys(views)[k].handle in views
    ensures forall j :: 0 <= j < |views| && views[j].Live? ==> Destroyed(ImageViewKind, views[j]) in ViewDestroys(views)
    decreases |views|
  {
    if |views| > 0 {
      ViewDestroysExact(views[1..]);
      forall j | 1 <= j < |views| ensures views[j] == views[1..][j - 1] { }
    }
  }

  /**
   The destructor's calls come in the order views, framebuffer, render pass;
   none names a null handle; every non-null view, the framebuffer and the render
   pass are each destroyed, and nothing else is.
   */
  lemma TeardownOrder(f: Fbo)
    ensures var ev := TeardownEvents(f);
      && (forall k :: 0 <= k < |ev| ==> ev[k].Destroyed? && ev[k].handle.Live? && ev[k].kind != ImageKind)
      && (forall j, k :: 0 <= j < k < |ev| ==> Rank(ev[j].kind) <= Rank(ev[k].kind))
      && (forall k :: 0 <= k < |ev| && ev[k].kind == ImageViewKind ==> ev[k].handle in f.layerViews)
      && (forall k :: 0 <= k < |ev| && ev[k].kind == FramebufferKind ==> ev[k].handle == f.framebuffer)
      && (forall k :: 0 <= k < |ev| && ev[k].kind == RenderPassKind ==> ev[k].handle == f.renderPass)
      && (forall j :: 0 <= j < |f.layerViews| && f.layerViews[j].Live? ==> Destroyed(ImageViewKind, f.layerViews[j]) in ev)
      && (f.framebuffer.Live? ==> Destroyed(FramebufferKind, f.framebuffer) in ev)
      && (f.renderPass.Live? ==> Destroyed(RenderPassKind, f.renderPass) in ev)
  {
    ViewDestroysExact(f.layerViews);
  }

  // ---------------------------------------------------------------------------
  // Ownership bookkeeping for the teardown-safety proof

  /**
   Every non-null handle of the render target is a live object of the matching
   kind, and no two layer views share an object.
   */
  ghost predicate OwnsDistinct(f: Fbo, d: Device)
  {
    && (forall j :: 0 <= j < |f.layerViews| && f.layerViews[j].Live? ==>
          d.CanDestroy(ImageViewKind, f.layerViews[j]))
    && (forall j, k :: 0 <= j < k < |f.layerViews| && f.layerViews[j].Live? && f.layerViews[k].Live? ==>
          f.layerViews[j].id != f.layerViews[k].id)
    && (f.framebuffer.Live? ==> d.CanDestroy(FramebufferKind, f.framebuffer))
    && (f.renderPass.Live? ==> d.CanDestroy(RenderPassKind, f.renderPass))
  }

  /**
   Relative to the state `s0` before `createRTT`: the live objects are the old
   ones, untouched, plus exactly the render target's own handles.
   */
  ghost predicate Accounts(s0: Sys, s: Sys)
  {
    && s.dev.Valid()
    && s.dev.live.Keys == s0.dev.live.Keys + RttIds(s.fbo)
    && RttIds(s.fbo) !! s0.dev.live.Keys
    && (forall id :: id in s0.dev.live ==> s.dev.live[id] == s0.dev.live[id])
    && OwnsDistinct(s.fbo, s.dev)
    && s.dev.misused == s0.dev.misused
  }

  lemma {:induction false} IdsOfMembers(hs: seq<Handle>, id: nat)
    ensures id in IdsOf(hs) <==> exists k :: 0 <= k < |hs| && hs[k] == Live(id)
    decreases |hs|
  {
    if |hs| > 0 {
      IdsOfMembers(hs[1..], id);
      if id in IdsOf(hs[1..]) {
        var k :| 0 <= k < |hs[1..]| && hs[1..][k] == Live(id);
        assert hs[k + 1] == Live(id);
      }
      if exists k :: 0 <= k < |hs| && hs[k] == Live(id) {
        var k :| 0 <= k < |hs| && hs[k] == Live(id);
        if k > 0 {
          assert hs[1..][k - 1] == Live(id);
        }
      }
    }
  }

  /** Storing a fresh handle into a null slot adds exactly its id. */
  lemma IdsOfStore(hs: seq<Handle>, j: nat, n: nat)
    requires j < |hs| && hs[j] == Null
    ensures IdsOf(hs[j := Live(n)]) == IdsOf(hs) + {n}
  {
    var hs' := hs[j := Live(n)];
    forall id | true
      ensures id in IdsOf(hs') <==> id in IdsOf(hs) + {n}
    {
      IdsOfMembers(hs, id);
      IdsOfMembers(hs', id);
      if id == n {
        assert hs'[j] == Live(n);
      }
      if id in IdsOf(hs') && id != n {
        var k :| 0 <= k < |hs'| && hs'[k] == Live(id);
        assert hs[k] == Live(id);
      }
      if id in IdsOf(hs) {
        var k :| 0 <= k < |hs| && hs[k] == Live(id);
        assert hs'[k] == Live(id);
      }
    }
  }

  /** Creating an object with a fresh id keeps every existing object, so ownership persists. */
  lemma OwnsAfterCreate(f: Fbo, d: Device, info: ObjectInfo)
    requires d.Valid() && OwnsDistinct(f, d)
    ensures OwnsDistinct(f, d.Create(info))
  {
    var d' := d.Create(info);
    forall j | 0 <= j < |f.layerViews| && f.layerViews[j].Live?
      ensures d'.CanDestroy(ImageViewKind, f.layerViews[j])
    {
      assert d.CanDestroy(ImageViewKind, f.layerViews[j]);
    }
  }

  /** Storing a fresh view into a null slot keeps the views distinct and owned. */
  lemma OwnsAfterStoreView(f: Fbo, d: Device, i: nat, info: ImageViewInfo)
    requires d.Valid() && OwnsDistinct(f, d) && i < |f.layerViews| && f.layerViews[i] == Null
    ensures OwnsDistinct(f.(layerViews := f.layerViews[i := d.NextHandle()]), d.Create(ImageViewObject(info)))
  {
    var d' := d.Create(ImageViewObject(info));
    var f' := f.(layerViews := f.layerViews[i := d.NextHandle()]);
    OwnsAfterCreate(f, d, ImageViewObject(info));
    forall j, k | 0 <= j < k < |f'.layerViews| && f'.layerViews[j].Live? && f'.layerViews[k].Live?
      ensures f'.layerViews[j].id != f'.layerViews[k].id
    {
      if j == i {
        assert d.CanDestroy(ImageViewKind, f.layerViews[k]);
      } else if k == i {
        assert d.CanDestroy(ImageViewKind, f.layerViews[j]);
      }
    }
  }

  /** Adding a fresh object that the render target now holds keeps the bookkeeping. */
  lemma AccountsAfterCreate(s0: Sys, s: Sys, f': Fbo, info: ObjectInfo)
    requires Accounts(s0, s)
    requires RttIds(f') == RttIds(s.fbo) + {s.dev.nextId}
    requires OwnsDistinct(f', s.dev.Create(info))
    ensures Accounts(s0, Sys(f', s.dev.Create(info)))
  {
    assert s.dev.nextId !in s.dev.live;
  }

  /** One step of the per-layer loop keeps the bookkeeping. */
  lemma StoreViewAccounts(s0: Sys, s: Sys, i: nat)
    requires s.fbo.Valid() && i < Count && s.fbo.layerViews[i] == Null
    requires Accounts(s0, s)
    ensures var s' := Sys(s.fbo.(layerViews := s.fbo.layerViews[i := s.dev.NextHandle()]),
                          s.dev.Create(ImageViewObject(LayerViewInfo(s.fbo.image, s.fbo.format, i))));
      Accounts(s0, s')
  {
    var info := LayerViewInfo(s.fbo.image, s.fbo.format, i);
    var f' := s.fbo.(layerViews := s.fbo.layerViews[i := s.dev.NextHandle()]);
    IdsOfStore(s.fbo.layerViews, i, s.dev.nextId);
    assert RttIds(f') == RttIds(s.fbo) + {s.dev.nextId};
    OwnsAfterStoreView(s.fbo, s.dev, i, info);
    AccountsAfterCreate(s0, s, f', ImageViewObject(info));
  }

  lemma {:induction false} CreateLayerViewsAccounts(s0: Sys, s: Sys, driver: Driver, i: nat)
    requires s.fbo.Valid() && s.dev.Valid() && i <= Count
    requires forall j :: i <= j < Count ==> s.fbo.layerViews[j] == Null
    requires Accounts(s0, s)
    ensures Accounts(s0, CreateLayerViews(s, driver, i).sys)
    decreases Count - i
  {
    if i < Count && LayerViewStep(i) !in driver.failing {
      var view := s.dev.NextHandle();
      var dev1 := s.dev.Create(ImageViewObject(LayerViewInfo(s.fbo.image, s.fbo.format, i)));
      var s1 := Sys(s.fbo.(layerViews := s.fbo.layerViews[i := view]), dev1);
      StoreViewAccounts(s0, s, i);
      CreateLayerViewsAccounts(s0, s1, driver, i + 1);
    }
  }

  /** Storing a fresh render pass into a null member keeps the bookkeeping. */
  lemma StoreRenderPassAccounts(s0: Sys, s: Sys, info: RenderPassInfo)
    requires s.fbo.renderPass == Null && Accounts(s0, s)
    ensures Accounts(s0, Sys(s.fbo.(renderPass := s.dev.NextHandle()), s.dev.Create(RenderPassObject(info))))
  {
    var f' := s.fbo.(renderPass := s.dev.NextHandle());
    OwnsAfterCreate(s.fbo, s.dev, RenderPassObject(info));
    assert RttIds(f') == RttIds(s.fbo) + {s.dev.nextId};
    AccountsAfterCreate(s0, s, f', RenderPassObject(info));
  }

  /** Storing a fresh framebuffer into a null member keeps the bookkeeping. */
  lemma StoreFramebufferAccounts(s0: Sys, s: Sys, info: FramebufferInfo)
    requires s.fbo.framebuffer == Null && Accounts(s0, s)
    ensures Accounts(s0, Sys(s.fbo.(framebuffer := s.dev.NextHandle()), s.dev.Create(FramebufferObject(info))))
  {
    var f' := s.fbo.(framebuffer := s.dev.NextHandle());
    OwnsAfterCreate(s.fbo, s.dev, FramebufferObject(info));
    assert RttIds(f') == RttIds(s.fbo) + {s.dev.nextId};
    AccountsAfterCreate(s0, s, f', FramebufferObject(info));
  }

  /** A sequence of null handles names no object. */
  lemma NullsHaveNoIds(hs: seq<Handle>)
    requires forall k :: 0 <= k < |hs| ==> hs[k] == Null
    ensures IdsOf(hs) == {}
  {
    forall id ensures id !in IdsOf(hs) { IdsOfMembers(hs, id); }
  }

  /** Right after the constructor the render target holds no object `createRTT` makes. */
  lemma ConstructedAccounts(s: Sys)
    requires Constructed(s)
    ensures Accounts(s, s)
  {
    NullsHaveNoIds(s.fbo.layerViews);
  }

  /** Starting from the constructed state, `createRTT` accounts for every object it makes. */
  lemma CreateRTTAccounts(s: Sys, driver: Driver)
    requires Constructed(s)
    ensures Accounts(s, CreateRTT(s, driver).sys)
  {
    ConstructedAccounts(s);
    var o := CreateRTT(s, driver);
    if RenderPassStep in driver.failing {
      assert o.sys == s;
    } else {
      var info := RenderPassLayout(s.fbo.format);
      var s1 := Sys(s.fbo.(renderPass := s.dev.NextHandle()), s.dev.Create(RenderPassObject(info)));
      StoreRenderPassAccounts(s, s, info);
      assert forall j :: 0 <= j < Count ==> s1.fbo.layerViews[j] == Null;
      CreateLayerViewsAccounts(s, s1, driver, 0);
      var v := CreateLayerViews(s1, driver, 0);
      if v.error.Some? || FramebufferStep in driver.failing {
        assert o.sys == v.sys;
      } else {
        var fb := FramebufferLayout(v.sys.fbo.renderPass, v.sys.fbo.layerViews, v.sys.fbo.size);
        assert v.sys.fbo.framebuffer == Null;
        StoreFramebufferAccounts(s, v.sys, fb);
        assert o.sys == CreateFramebuffer(v.sys, driver).sys;
      }
    }
  }

  /** Destroying distinct live views releases exactly their ids, with no misuse. */
  lemma {:induction false} DestroyViewsSafe(d: Device, views: seq<Handle>)
    requires forall j :: 0 <= j < |views| && views[j].Live? ==> d.CanDestroy(ImageViewKind, views[j])
    requires forall j, k :: 0 <= j < k < |views| && views[j].Live? && views[k].Live? ==> views[j].id != views[k].id
    ensures DestroyViews(d, views).misused == d.misused
    decreases |views|
  {
    if |views| > 0 {
      var d1 := if views[0].Live? then d.Destroy(ImageViewKind, views[0]) else d;
      var rest := views[1..];
      forall j | 0 <= j < |rest| && rest[j].Live?
        ensures d1.CanDestroy(ImageViewKind, rest[j])
      {
        assert rest[j] == views[j + 1];
      }
      forall j, k | 0 <= j < k < |rest| && rest[j].Live? && rest[k].Live?
        ensures rest[j].id != rest[k].id
      {
        assert rest[j] == views[j + 1] && rest[k] == views[k + 1];
      }
      DestroyViewsSafe(d1, rest);
    }
  }

  /** A destructor run on an owning render target misuses no handle. */
  lemma TeardownSafe(s: Sys)
    requires OwnsDistinct(s.fbo, s.dev)
    ensures Teardown(s).misused == s.dev.misused
  {
    DestroyViewsSafe(s.dev, s.fbo.layerViews);
    var d1 := DestroyViews(s.dev, s.fbo.layerViews);
    if s.fbo.framebuffer.Live? {
      IdsOfMembers(s.fbo.layerViews, s.fbo.framebuffer.id);
      assert s.fbo.framebuffer.id !in IdsOf(s.fbo.layerViews);
    }
    var d2 := if s.fbo.framebuffer.Live? then d1.Destroy(FramebufferKind, s.fbo.framebuffer) else d1;
    if s.fbo.renderPass.Live? {
      IdsOfMembers(s.fbo.layerViews, s.fbo.renderPass.id);
      assert s.fbo.renderPass.id !in IdsOf(s.fbo.layerViews);
      assert s.fbo.framebuffer.Live? ==> s.fbo.renderPass.id != s.fbo.framebuffer.id;
    }
  }

  /** Tearing down a render target that accounts for its objects restores the device's objects. */
  lemma TeardownAccounted(s0: Sys, s: Sys)
    requires Accounts(s0, s)
    ensures Teardown(s).live == s0.dev.live && Teardown(s).misused == s0.dev.misused
  {
    TeardownSafe(s);
    var t := Teardown(s);
    assert t.live.Keys == s0.dev.live.Keys;
  }

  /**
   Whatever the driver rejects, running the destructor after the store-on-success
   `createRTT` (complete or partial) destroys exactly the objects `createRTT` made,
   each once, and never a handle that is not a live object of the kind being
   destroyed: the device is left with exactly the objects it had before.
   */
  lemma TeardownAfterCreateRTTIsSafe(s: Sys, driver: Driver)
    requires Constructed(s)
    ensures var t := Teardown(CreateRTT(s, driver).sys);
      t.live == s.dev.live && t.misused == s.dev.misused
  {
    CreateRTTAccounts(s, driver);
    TeardownAccounted(s, CreateRTT(s, driver).sys);
  }

  /**
   `createData` may run before `createRTT` or after it: the state `createRTT`
   starts from survives `createData`, and `createRTT` then makes the same objects,
   throws the same error and leaves the fresh draw calls in place.
   */
  lemma CreateRTTIgnoresDrawCalls(s: Sys, driver: Driver)
    requires Constructed(s)
    ensures var s2 := Sys(CreateData(s.fbo), s.dev);
      var o := CreateRTT(s, driver);
      var o2 := CreateRTT(s2, driver);
      && Constructed(s2)
      && o2.error == o.error
      && o2.sys == Sys(o.sys.fbo.(drawCalls := s2.fbo.drawCalls), o.sys.dev)
  {
  }

  /** The teardown guarantee also holds when `createData` ran before `createRTT`. */
  lemma TeardownSafeAfterCreateDataThenCreateRTT(s: Sys, driver: Driver)
    requires Constructed(s)
    ensures var t := Teardown(CreateRTT(Sys(CreateData(s.fbo), s.dev), driver).sys);
      t.live == s.dev.live && t.misused == s.dev.misused
  {
    CreateRTTIgnoresDrawCalls(s, driver);
    TeardownAfterCreateRTTIsSafe(Sys(CreateData(s.fbo), s.dev), driver);
  }

  /**
   The code as written keeps the teardown guarantee whenever the driver leaves a
   rejected call's output null: only a non-null leftover breaks it.
   */
  lemma AsWrittenTeardownSafeOnNullLeftover(s: Sys, failing: set<Step>)
    requires Constructed(s)
    ensures var t := Teardown(CreateRTTAsWritten(s, Driver(failing, Null)).sys);
      t.live == s.dev.live && t.misused == s.dev.misused
  {
    AsWrittenAgreesOnNullLeftover(s, failing);
    TeardownAfterCreateRTTIsSafe(s, Driver(failing, Null));
  }

  /** The same holds for the code as written when `createData` ran first. */
  lemma AsWrittenTeardownSafeAfterCreateDataOnNullLeftover(s: Sys, failing: set<Step>)
    requires Constructed(s)
    ensures var t := Teardown(CreateRTTAsWritten(Sys(CreateData(s.fbo), s.dev), Driver(failing, Null)).sys);
      t.live == s.dev.live && t.misused == s.dev.misused
  {
    CreateRTTIgnoresDrawCalls(s, Driver(failing, Null));
    AsWrittenTeardownSafeOnNullLeftover(Sys(CreateData(s.fbo), s.dev), failing);
  }

  /**
   With `createData` run first, the as-written `createRTT` breaks the guarantee in
   the same way: a non-null leftover from a rejected vkCreateRenderPass reaches
   vkDestroyRenderPass.
   */
  lemma AsWrittenAfterCreateDataDestroysUnownedHandle(s: Sys, junk: nat)
    requires Constructed(s)
    ensures var o := CreateRTTAsWritten(Sys(CreateData(s.fbo), s.dev), Driver({RenderPassStep}, Live(junk)));
      var t := Teardown(o.sys);
      && o.error == Some(RenderPassCreationFailed)
      && (junk in s.dev.live ==> t.live == s.dev.live - {junk})
      && (junk !in s.dev.live ==> t.misused)
  {
    CreateRTTIgnoresDrawCalls(s, Driver({RenderPassStep}, Live(junk)));
    AsWrittenTeardownDestroysUnownedHandle(Sys(CreateData(s.fbo), s.dev), junk);
  }

  /**
   The as-written `createRTT` breaks that guarantee: when vkCreateRenderPass fails
   and leaves a non-null value in its output parameter, the destructor passes that
   value to vkDestroyRenderPass. Either it names no live render pass (a misuse of
   the device) or it names an object this render target never created, which is
   then destroyed.
   */
  lemma AsWrittenTeardownDestroysUnownedHandle(s: Sys, junk: nat)
    requires Constructed(s)
    ensures var o := CreateRTTAsWritten(s, Driver({RenderPassStep}, Live(junk)));
      var t := Teardown(o.sys);
      && o.error == Some(RenderPassCreationFailed)
      && (junk in s.dev.live ==> t.live == s.dev.live - {junk})
      && (junk !in s.dev.live ==> t.misused)
  {
    var o := CreateRTTAsWritten(s, Driver({RenderPassStep}, Live(junk)));
    assert o.sys.fbo.renderPass == Live(junk);
    assert o.sys.fbo.framebuffer == Null && o.sys.dev == s.dev;
    NullsHaveNoIds(o.sys.fbo.layerViews);
    var t := Teardown(o.sys);
    assert RttIds(o.sys.fbo) == {junk};
    if junk in s.dev.live {
      assert junk !in t.live;
    } else {
      var d1 := DestroyViews(s.dev, o.sys.fbo.layerViews);
      assert d1.live == s.dev.live;
      assert t == d1.Destroy(RenderPassKind, Live(junk));
      assert !d1.CanDestroy(RenderPassKind, Live(junk));
    }
  }

  // ---------------------------------------------------------------------------
  // Draw calls

  /** `createData`: one draw call per cascade, draw call i for cascade i. */
  function CreateData(f: Fbo): (r: Fbo)
    requires f.Valid()
    ensures r.Valid() && r.DrawCallsReady()
    ensures forall i :: 0 <= i < Count ==> r.drawCalls[i].nodes == [] && r.drawCalls[i].cullingCascade == None
    ensures r == f.(drawCalls := r.drawCalls)
  {
    f.(drawCalls := seq(Count, i requires 0 <= i < Count => DC.NewDrawCall(FromIndex(i))))
  }

  /**
   `addNode` forwards the node to every cascade's draw call: it lands in every
   cascade's list except Far's when it is small.
   */
  function AddNode(f: Fbo, node: DC.Node): (r: Fbo)
    requires f.Valid() && f.DrawCallsReady()
    ensures r.Valid() && r.DrawCallsReady() && r == f.(drawCalls := r.drawCalls)
    ensures forall i :: 0 <= i < Count ==>
      && r.drawCalls[i].cullingCascade == f.drawCalls[i].cullingCascade
      && (r.drawCalls[i].nodes == f.drawCalls[i].nodes + [node] <==> !(i == Index(Far) && node.area < DC.SmallObjectArea))
      && (r.drawCalls[i].nodes == f.drawCalls[i].nodes || r.drawCalls[i].nodes == f.drawCalls[i].nodes + [node])
  {
    var r := f.(drawCalls := seq(Count, i requires 0 <= i < Count => DC.AddNode(f.drawCalls[i], node)));
    assert forall i :: 0 <= i < Count ==> r.drawCalls[i] == DC.AddNode(f.drawCalls[i], node);
    assert forall i :: 0 <= i < Count ==> f.drawCalls[i].nodes + [node] != f.drawCalls[i].nodes;
    r
  }

  /** The draw-call part of `prepare`: draw call i is reset and set up to cull for cascade i. */
  function PrepareDrawCalls(f: Fbo): (r: Fbo)
    requires f.Valid() && f.DrawCallsReady()
    ensures r.Valid() && r.DrawCallsReady() && r == f.(drawCalls := r.drawCalls)
    ensures forall i :: 0 <= i < Count ==>
      r.drawCalls[i].nodes == [] && r.drawCalls[i].cullingCascade == Some(r.drawCalls[i].cascade)
  {
    f.(drawCalls := seq(Count, i requires 0 <= i < Count => DC.PrepareShadow(f.drawCalls[i], FromIndex(i))))
  }

  /** The per-cascade view ranges `prepare` derives, in cascade order. */
  function ViewRanges(camNear: real, camFar: real): (r: seq<ViewRange>)
    ensures |r| == Count
    ensures forall i :: 0 <= i < Count ==> r[i] == CascadeViewRange(FromIndex(i), camNear, camFar)
    ensures forall i :: 0 <= i < Count ==> r[i].vfar == SplitFar(FromIndex(i)) && r[i].dznear >= 0.0 && r[i].dzfar >= 0.0
    ensures r[0].vnear == FirstViewNear
    ensures forall i :: 1 <= i < Count ==> r[i].vnear == r[i - 1].vfar
  {
    var r := seq(Count, i requires 0 <= i < Count => CascadeViewRange(FromIndex(i), camNear, camFar));
    assert forall i :: 0 <= i < Count ==> r[i] == CascadeViewRange(FromIndex(i), camNear, camFar);
    assert forall i :: 1 <= i < Count ==> r[i].vnear == r[i - 1].vfar by {
      forall i | 1 <= i < Count ensures r[i].vnear == r[i - 1].vfar {
        ViewRangesAbut(i, camNear, camFar);
      }
    }
    r
  }

  /** Every draw call creates its pipelines against the one render pass of its render target. */
  function RenderPassForPipelineCreation(f: Fbo, dc: DC.DrawCall): (rp: Handle)
    ensures rp == f.renderPass
  {
    f.renderPass
  }

  /**
   The pipelines of cascade c's draw call target the render target's render pass
   and sub-pass Index(c); that sub-pass writes attachment Index(c) and no other;
   framebuffer attachment Index(c) is the view of array layer Index(c) alone.
   */
  lemma CascadeWritesItsOwnLayer(s: Sys, c: Cascade)
    requires s.fbo.Valid() && s.fbo.DrawCallsReady() && RttComplete(s)
    ensures var dc := s.fbo.drawCalls[Index(c)];
      var sp := DC.SubpassForPipelineCreation(dc);
      var rp := RenderPassForPipelineCreation(s.fbo, dc);
      && IsObject(s.dev, rp, RenderPassObject(RenderPassLayout(s.fbo.format)))
      && (forall a :: 0 <= a < Count ==> (WritesAttachment(RenderPassLayout(s.fbo.format), sp, a) <==> a == Index(c)))
      && IsObject(s.dev, s.fbo.framebuffer, FramebufferObject(FramebufferLayout(rp, s.fbo.layerViews, s.fbo.size)))
      && FramebufferLayout(rp, s.fbo.layerViews, s.fbo.size).attachments[Index(c)] == s.fbo.layerViews[Index(c)]
      && HasLayerView(s, Index(c))
      && (forall layer :: 0 <= layer < Count ==>
            (CoversLayer(LayerViewInfo(s.fbo.image, s.fbo.format, Index(c)), layer) <==> layer == Index(c)))
  {
    LayoutWellFormed(s.fbo.format);
    assert HasLayerView(s, Index(c));
  }
}

=== FILE: shadow_render.dfy ===
/**
 The command trace `render` records into a command buffer, and the Vulkan rules
 for recording a multi-sub-pass render pass instance, stated as a small state
 machine over that trace: begin from outside a pass with a clear value per
 attachment, draw only with a pipeline built for the current sub-pass, advance
 the sub-pass only while one remains, end only in the last one.
 */
module ShadowRender {
  import opened Wrappers
  import opened Cascades
  import opened Vk
  import DC = ShadowDrawCall
  import opened ShadowFbo

  /** VkClearDepthStencilValue. */
  datatype ClearValue = ClearValue(depth: real, stencil: nat)

  /** VkRect2D. */
  datatype Rect = Rect(x: int, y: int, width: nat, height: nat)

  /** VkViewport. */
  datatype Viewport = Viewport(x: real, y: real, width: real, height: real, minDepth: real, maxDepth: real)

  /**
   The commands `render` records. `RenderDepthPipeline` is one draw call's depth
   pipeline pass; `subpass` is the sub-pass its pipelines were created for.
   */
  datatype Command =
    | BeginRenderPass(renderPass: Handle, framebuffer: Handle, clears: seq<ClearValue>, area: Rect)
    | SetViewport(viewport: Viewport)
    | SetScissor(scissor: Rect)
    | BindAllMaterials(bound: Cascade)
    | PrepareRendering(prepared: Cascade)
    | RenderDepthPipeline(cascade: Cascade, subpass: nat)
    | NextSubpass
    | EndRenderPass

  /** Where recording stands relative to a render pass instance; Broken absorbs every misuse. */
  datatype PassState = Outside | Inside(current: nat) | Broken

  /**
   One recorded command, for a render pass of `n` sub-passes whose every
   attachment is cleared on load.
   */
  function Transition(st: PassState, cmd: Command, n: nat): PassState
  {
    match st
    case Broken => Broken
    case Outside =>
      (match cmd
       case BeginRenderPass(_, _, clears, _) => if 0 < n && n <= |clears| then Inside(0) else Broken
       case RenderDepthPipeline(_, _) => Broken
       case NextSubpass => Broken
       case EndRenderPass => Broken
       case _ => Outside)
    case Inside(k) =>
      (match cmd
       case BeginRenderPass(_, _, _, _) => Broken
       case RenderDepthPipeline(_, sp) => if sp == k then st else Broken
       case NextSubpass => if k + 1 < n then Inside(k + 1) else Broken
       case EndRenderPass => if k + 1 == n then Outside else Broken
       case _ => st)
  }

  /** The state after recording `cmds` from `st`; defined from the last command back. */
  function Replay(st: PassState, cmds: seq<Command>, n: nat): PassState
    decreases |cmds|
  {
    if |cmds| == 0 then st else Transition(Replay(st, cmds[..|cmds| - 1], n), cmds[|cmds| - 1], n)
  }

  /** The number of `vkCmdNextSubpass` calls in a trace. */
  function CountNextSubpass(cmds: seq<Command>): nat
    decreases |cmds|
  {
    if |cmds| == 0 then 0
    else CountNextSubpass(cmds[..|cmds| - 1]) + (if cmds[|cmds| - 1].NextSubpass? then 1 else 0)
  }

  /** The per-cascade commands of a trace. */
  datatype Selector = Binds | Prepares | Draws

  function CascadeOf(sel: Selector, cmd: Command): Option<Cascade>
  {
    match sel
    case Binds => if cmd.BindAllMaterials? then Some(cmd.bound) else None
    case Prepares => if cmd.PrepareRendering? then Some(cmd.prepared) else None
    case Draws => if cmd.RenderDepthPipeline? then Some(cmd.cascade) else None
  }

  /** The cascades that the `sel` commands of a trace name, in recording order. */
  function Recorded(sel: Selector, cmds: seq<Command>): seq<Cascade>
    decreases |cmds|
  {
    if |cmds| == 0 then []
    else
      var last := CascadeOf(sel, cmds[|cmds| - 1]);
      Recorded(sel, cmds[..|cmds| - 1]) + (if last.Some? then [last.value] else [])
  }

  /** Every depth-pipeline draw uses pipelines created for its own cascade's sub-pass. */
  predicate PipelinesMatchCascades(cmds: seq<Command>)
  {
    forall k :: 0 <= k < |cmds| && cmds[k].RenderDepthPipeline? ==> cmds[k].subpass == Index(cmds[k].cascade)
  }

  /** Recording `a` then `c` reaches the state that recording `c` from `a`'s end state does. */
  lemma {:induction false} ReplayConcat(st: PassState, a: seq<Command>, c: seq<Command>, n: nat)
    ensures Replay(st, a + c, n) == Replay(Replay(st, a, n), c, n)
    decreases |c|
  {
    if |c| > 0 {
      var init := c[..|c| - 1];
      assert (a + c)[..|a + c| - 1] == a + init;
      ReplayConcat(st, a, init, n);
    } else {
      assert a + c == a;
    }
  }

  /** Sub-pass advances add up over concatenated traces. */
  lemma {:induction false} CountConcat(a: seq<Command>, c: seq<Command>)
    ensures CountNextSubpass(a + c) == CountNextSubpass(a) + CountNextSubpass(c)
    decreases |c|
  {
    if |c| > 0 {
      var init := c[..|c| - 1];
      assert (a + c)[..|a + c| - 1] == a + init;
      CountConcat(a, init);
    } else {
      assert a + c == a;
    }
  }

  /** The cascades named by a concatenated trace are those of its parts, in order. */
  lemma {:induction false} RecordedConcat(sel: Selector, a: seq<Command>, c: seq<Command>)
    ensures Recorded(sel, a + c) == Recorded(sel, a) + Recorded(sel, c)
    decreases |c|
  {
    if |c| > 0 {
      var init := c[..|c| - 1];
      assert (a + c)[..|a + c| - 1] == a + init;
      RecordedConcat(sel, a, init);
    } else {
      assert a + c == a;
    }
  }

  /** Concatenating traces whose draws match their cascades keeps that property. */
  lemma PipelinesConcat(a: seq<Command>, c: seq<Command>)
    requires PipelinesMatchCascades(a) && PipelinesMatchCascades(c)
    ensures PipelinesMatchCascades(a + c)
  {
    forall k | 0 <= k < |a + c| && (a + c)[k].RenderDepthPipeline?
      ensures (a + c)[k].subpass == Index((a + c)[k].cascade)
    {
      if k >= |a| {
        assert (a + c)[k] == c[k - |a|];
      }
    }
  }

  /**
   A trace that does not break the render-pass rules records every draw while the
   sub-pass its pipelines were created for is the current one.
   */
  lemma {:induction false} DrawsMatchSubpass(st: PassState, cmds: seq<Command>, n: nat)
    requires Replay(st, cmds, n) != Broken
    ensures forall k :: 0 <= k < |cmds| && cmds[k].RenderDepthPipeline? ==>
      Replay(st, cmds[..k], n) == Inside(cmds[k].subpass)
    decreases |cmds|
  {
    if |cmds| > 0 {
      var init := cmds[..|cmds| - 1];
      assert Replay(st, init, n) != Broken;
      DrawsMatchSubpass(st, init, n);
      forall k | 0 <= k < |cmds| && cmds[k].RenderDepthPipeline?
        ensures Replay(st, cmds[..k], n) == Inside(cmds[k].subpass)
      {
        if k < |init| {
          assert cmds[..k] == init[..k];
          assert cmds[k] == init[k];
        } else {
          assert cmds[..k] == init;
        }
      }
    }
  }

  /** One clear value per cascade: depth cleared to the far plane, stencil to 0. */
  function ShadowClears(): (cv: seq<ClearValue>)
    ensures |cv| == Count
    ensures forall i :: 0 <= i < |cv| ==> cv[i].depth == 1.0 && cv[i].stencil == 0
  {
    seq(Count, _ => ClearValue(1.0, 0))
  }

  /** The whole `size` x `size` target. */
  function FullArea(size: nat): (r: Rect)
    ensures r.x == 0 && r.y == 0 && r.width == size && r.height == size
  {
    Rect(0, 0, size, size)
  }

  /** The whole target, with the full [0, 1] depth range. */
  function FullViewport(size: nat): (v: Viewport)
    ensures v.x == 0.0 && v.y == 0.0 && v.width == size as real && v.height == size as real
    ensures v.minDepth == 0.0 && v.maxDepth == 1.0
  {
    Viewport(0.0, 0.0, size as real, size as real, 0.0, 1.0)
  }

  /** Begin the pass over the whole target, then set the full viewport and scissor. */
  function Header(f: Fbo): seq<Command>
  {
    [BeginRenderPass(f.renderPass, f.framebuffer, ShadowClears(), FullArea(f.size)),
     SetViewport(FullViewport(f.size)),
     SetScissor(FullArea(f.size))]
  }

  /** The blocks of the draw calls `dcs`, the first ones of the render target's Count. */
  function Blocks(dcs: seq<DC.DrawCall>, bindMeshTextures: bool): seq<Command>
    decreases |dcs|
  {
    if |dcs| == 0 then []
    else Blocks(dcs[..|dcs| - 1], bindMeshTextures) + CascadeBlock(dcs[|dcs| - 1], bindMeshTextures, |dcs| == Count)
  }

  /** Cascades 0 .. i-1, in index order. */
  function FirstCascades(i: nat): (cs: seq<Cascade>)
    requires i <= Count
    ensures |cs| == i
    decreases i
  {
    if i == 0 then [] else FirstCascades(i - 1) + [FromIndex(i - 1)]
  }

  /** Taking every cascade index gives the full cascade list. */
  lemma {:induction false} FirstCascadesAreAll(i: nat)
    requires i <= Count
    ensures FirstCascades(i) == AllCascades()[..i]
    decreases i
  {
    if i > 0 {
      FirstCascadesAreAll(i - 1);
      assert AllCascades()[..i] == AllCascades()[..i - 1] + [AllCascades()[i - 1]];
      assert Index(AllCascades()[i - 1]) == i - 1 == Index(FromIndex(i - 1));
    }
  }

  /** What the `sel` commands of a trace covering cascades `cs` name: nothing for unused binds. */
  function Expected(sel: Selector, bindMeshTextures: bool, cs: seq<Cascade>): seq<Cascade>
  {
    if sel == Binds && !bindMeshTextures then [] else cs
  }

  /** A one-command trace is that command's step. */
  lemma SingleStep(st: PassState, x: Command, n: nat)
    ensures Replay(st, [x], n) == Transition(st, x, n)
    ensures CountNextSubpass([x]) == if x.NextSubpass? then 1 else 0
  {
    assert [x][..0] == [];
  }

  /** A one-command trace names the cascade of that command, if it is a `sel` command. */
  lemma SingleRecord(sel: Selector, x: Command)
    ensures Recorded(sel, [x]) == if CascadeOf(sel, x).Some? then [CascadeOf(sel, x).value] else []
  {
    assert [x][..0] == [];
  }

  /** The header enters sub-pass 0 without advancing. */
  lemma HeaderAdvance(f: Fbo)
    ensures Replay(Outside, Header(f), Count) == Inside(0)
    ensures CountNextSubpass(Header(f)) == 0
  {
    var h := Header(f);
    var x0, x1, x2 := h[0], h[1], h[2];
    SingleStep(Outside, x0, Count);
    SingleStep(Inside(0), x1, Count);
    SingleStep(Inside(0), x2, Count);
    ReplayConcat(Outside, [x0], [x1], Count);
    ReplayConcat(Outside, [x0] + [x1], [x2], Count);
    CountConcat([x0], [x1]);
    CountConcat([x0] + [x1], [x2]);
    assert h == [x0] + [x1] + [x2];
  }

  /** The header names no cascade and draws nothing. */
  lemma HeaderRecords(f: Fbo, sel: Selector)
    ensures Recorded(sel, Header(f)) == []
    ensures PipelinesMatchCascades(Header(f))
  {
    var h := Header(f);
    var x0, x1, x2 := h[0], h[1], h[2];
    SingleRecord(sel, x0);
    SingleRecord(sel, x1);
    SingleRecord(sel, x2);
    RecordedConcat(sel, [x0], [x1]);
    RecordedConcat(sel, [x0] + [x1], [x2]);
    assert h == [x0] + [x1] + [x2];
  }

  /** The commands of cascade i before the sub-pass advance: optional bind, prepare, draw. */
  function DrawPart(dc: DC.DrawCall, bindMeshTextures: bool): seq<Command>
  {
    (if bindMeshTextures then [BindAllMaterials(dc.cascade)] else [])
    + [PrepareRendering(dc.cascade), RenderDepthPipeline(dc.cascade, DC.SubpassForPipelineCreation(dc))]
  }

  /** The sub-pass advance after a cascade, absent after the last. */
  function AdvancePart(last: bool): seq<Command>
  {
    if last then [] else [NextSubpass]
  }

  /** The commands one iteration of the cascade loop records. */
  function CascadeBlock(dc: DC.DrawCall, bindMeshTextures: bool, last: bool): seq<Command>
  {
    DrawPart(dc, bindMeshTextures) + AdvancePart(last)
  }

  /** The pipelines of a draw call are created for sub-pass Index(cascade). */
  lemma PipelineSubpass(dc: DC.DrawCall)
    ensures DC.SubpassForPipelineCreation(dc) == Index(dc.cascade)
  {
    var sp := DC.SubpassForPipelineCreation(dc);
    assert sp == Index(FromIndex(sp));
  }

  /** Drawing cascade i in sub-pass i stays in sub-pass i. */
  lemma DrawAdvance(dc: DC.DrawCall, bindMeshTextures: bool, i: nat)
    requires i < Count && dc.cascade == FromIndex(i)
    ensures Replay(Inside(i), DrawPart(dc, bindMeshTextures), Count) == Inside(i)
    ensures CountNextSubpass(DrawPart(dc, bindMeshTextures)) == 0
    ensures PipelinesMatchCascades(DrawPart(dc, bindMeshTextures))
  {
    var c := dc.cascade;
    PipelineSubpass(dc);
    var bind: seq<Command> := if bindMeshTextures then [BindAllMaterials(c)] else [];
    var p, d := PrepareRendering(c), RenderDepthPipeline(c, i);
    SingleStep(Inside(i), BindAllMaterials(c), Count);
    SingleStep(Inside(i), p, Count);
    SingleStep(Inside(i), d, Count);
    ReplayConcat(Inside(i), bind, [p], Count);
    ReplayConcat(Inside(i), bind + [p], [d], Count);
    CountConcat(bind, [p]);
    CountConcat(bind + [p], [d]);
    assert DrawPart(dc, bindMeshTextures) == bind + [p] + [d];
  }

  /** Drawing cascade c names it once as prepared and drawn, and as bound when binding is on. */
  lemma DrawRecords(dc: DC.DrawCall, bindMeshTextures: bool, sel: Selector)
    ensures Recorded(sel, DrawPart(dc, bindMeshTextures)) == Expected(sel, bindMeshTextures, [dc.cascade])
  {
    var c := dc.cascade;
    var bind: seq<Command> := if bindMeshTextures then [BindAllMaterials(c)] else [];
    var p, d := PrepareRendering(c), RenderDepthPipeline(c, DC.SubpassForPipelineCreation(dc));
    SingleRecord(sel, BindAllMaterials(c));
    SingleRecord(sel, p);
    SingleRecord(sel, d);
    RecordedConcat(sel, bind, [p]);
    RecordedConcat(sel, bind + [p], [d]);
    assert DrawPart(dc, bindMeshTextures) == bind + [p] + [d];
  }

  /** Cascade i's block moves from sub-pass i to i + 1, or stays in the last one. */
  lemma BlockAdvance(dc: DC.DrawCall, bindMeshTextures: bool, i: nat)
    requires i < Count && dc.cascade == FromIndex(i)
    ensures var b := CascadeBlock(dc, bindMeshTextures, i == Count - 1);
      && Replay(Inside(i), b, Count) == Inside(if i + 1 < Count then i + 1 else i)
      && CountNextSubpass(b) == (if i + 1 < Count then 1 else 0)
      && PipelinesMatchCascades(b)
  {
    var d := DrawPart(dc, bindMeshTextures);
    var t := AdvancePart(i == Count - 1);
    DrawAdvance(dc, bindMeshTextures, i);
    SingleStep(Inside(i), NextSubpass, Count);
    ReplayConcat(Inside(i), d, t, Count);
    CountConcat(d, t);
    PipelinesConcat(d, t);
  }

  /** Cascade i's block names cascade i once per kind of per-cascade command. */
  lemma BlockRecords(dc: DC.DrawCall, bindMeshTextures: bool, last: bool, sel: Selector)
    ensures Recorded(sel, CascadeBlock(dc, bindMeshTextures, last)) == Expected(sel, bindMeshTextures, [dc.cascade])
  {
    var d := DrawPart(dc, bindMeshTextures);
    DrawRecords(dc, bindMeshTextures, sel);
    if last {
      assert CascadeBlock(dc, bindMeshTextures, last) == d + [];
      assert d + [] == d;
    } else {
      SingleRecord(sel, NextSubpass);
      assert Recorded(sel, [NextSubpass]) == [];
      RecordedConcat(sel, d, [NextSubpass]);
    }
  }

  /**
   After the first `i` blocks the pass is in sub-pass i (the last one once all are
   recorded), has advanced once per finished cascade but the last, and every draw
   uses pipelines made for its own cascade's sub-pass.
   */
  lemma {:induction false} BlocksAdvance(f: Fbo, bindMeshTextures: bool, i: nat)
    requires f.Valid() && f.DrawCallsReady() && i <= Count
    ensures var b := Blocks(f.drawCalls[..i], bindMeshTextures);
      && Replay(Inside(0), b, Count) == Inside(if i < Count then i else Count - 1)
      && CountNextSubpass(b) == (if i < Count then i else Count - 1)
      && PipelinesMatchCascades(b)
    decreases i
  {
    if i > 0 {
      var dcs := f.drawCalls[..i];
      assert dcs[..i - 1] == f.drawCalls[..i - 1] && dcs[i - 1] == f.drawCalls[i - 1];
      BlocksAdvance(f, bindMeshTextures, i - 1);
      BlockAdvance(f.drawCalls[i - 1], bindMeshTextures, i - 1);
      var prev := Blocks(f.drawCalls[..i - 1], bindMeshTextures);
      var last := CascadeBlock(f.drawCalls[i - 1], bindMeshTextures, i == Count);
      ReplayConcat(Inside(0), prev, last, Count);
      CountConcat(prev, last);
      PipelinesConcat(prev, last);
    }
  }

  /** The `sel` commands of the first `i` blocks name cascades 0 .. i-1 in order. */
  lemma {:induction false} BlocksRecord(f: Fbo, bindMeshTextures: bool, sel: Selector, i: nat)
    requires f.Valid() && f.DrawCallsReady() && i <= Count
    ensures Recorded(sel, Blocks(f.drawCalls[..i], bindMeshTextures)) == Expected(sel, bindMeshTextures, FirstCascades(i))
    decreases i
  {
    if i > 0 {
      var dcs := f.drawCalls[..i];
      assert dcs[..i - 1] == f.drawCalls[..i - 1] && dcs[i - 1] == f.drawCalls[i - 1];
      BlocksRecord(f, bindMeshTextures, sel, i - 1);
      BlockRecords(f.drawCalls[i - 1], bindMeshTextures, i == Count, sel);
      RecordedConcat(sel, Blocks(f.drawCalls[..i - 1], bindMeshTextures),
                     CascadeBlock(f.drawCalls[i - 1], bindMeshTextures, i == Count));
    }
  }

  /** A command the cascade loop records: a bind, a prepare, a depth draw or a sub-pass advance. */
  predicate IsCascadeCommand(c: Command)
  {
    c.BindAllMaterials? || c.PrepareRendering? || c.RenderDepthPipeline? || c.NextSubpass?
  }

  predicate OnlyCascadeCommands(cmds: seq<Command>)
  {
    forall k :: 0 <= k < |cmds| ==> IsCascadeCommand(cmds[k])
  }

  /**
   Every depth draw comes right after the prepare of its own cascade and, when
   mesh textures are bound at once, that prepare right after its own cascade's bind.
   */
  predicate DrawsPrepared(cmds: seq<Command>, bindMeshTextures: bool)
  {
    && (forall k :: 0 <= k < |cmds| && cmds[k].RenderDepthPipeline? ==>
          (if bindMeshTextures then 2 else 1) <= k)
    && (forall k :: 1 <= k < |cmds| && cmds[k].RenderDepthPipeline? ==>
          cmds[k - 1] == PrepareRendering(cmds[k].cascade))
    && (forall k :: 2 <= k < |cmds| && cmds[k].RenderDepthPipeline? && bindMeshTextures ==>
          cmds[k - 2] == BindAllMaterials(cmds[k].cascade))
  }

  lemma OnlyCascadeConcat(a: seq<Command>, c: seq<Command>)
    requires OnlyCascadeCommands(a) && OnlyCascadeCommands(c)
    ensures OnlyCascadeCommands(a + c)
  {
    forall k | 0 <= k < |a + c|
      ensures IsCascadeCommand((a + c)[k])
    {
      if k >= |a| {
        assert (a + c)[k] == c[k - |a|];
      }
    }
  }

  lemma DrawsPreparedConcat(a: seq<Command>, c: seq<Command>, bindMeshTextures: bool)
    requires DrawsPrepared(a, bindMeshTextures) && DrawsPrepared(c, bindMeshTextures)
    ensures DrawsPrepared(a + c, bindMeshTextures)
  {
    var t := a + c;
    var lo := if bindMeshTextures then 2 else 1;
    forall k | 0 <= k < |t| && t[k].RenderDepthPipeline?
      ensures lo <= k
      ensures t[k - 1] == PrepareRendering(t[k].cascade)
      ensures bindMeshTextures ==> t[k - 2] == BindAllMaterials(t[k].cascade)
    {
      if k >= |a| {
        var j := k - |a|;
        assert t[k] == c[j] && c[j].RenderDepthPipeline?;
        assert lo <= j;
        assert t[k - 1] == c[j - 1];
        if bindMeshTextures {
          assert t[k - 2] == c[j - 2];
        }
      } else {
        assert t[k] == a[k] && a[k].RenderDepthPipeline?;
        assert lo <= k;
        assert t[k - 1] == a[k - 1];
        if bindMeshTextures {
          assert t[k - 2] == a[k - 2];
        }
      }
    }
  }

  /** A cascade's block holds only loop commands, with its bind and prepare right before its draw. */
  lemma BlockShape(dc: DC.DrawCall, bindMeshTextures: bool, last: bool)
    ensures OnlyCascadeCommands(CascadeBlock(dc, bindMeshTextures, last))
    ensures DrawsPrepared(CascadeBlock(dc, bindMeshTextures, last), bindMeshTextures)
  {
    var c := dc.cascade;
    var d := RenderDepthPipeline(c, DC.SubpassForPipelineCreation(dc));
    var body := [PrepareRendering(c), d];
    var part := if bindMeshTextures then [BindAllMaterials(c)] + body else body;
    assert DrawPart(dc, bindMeshTextures) == part;
    var block := CascadeBlock(dc, bindMeshTextures, last);
    assert block == part + AdvancePart(last);
    assert forall k :: 0 <= k < |block| && block[k].RenderDepthPipeline? ==> k == |part| - 1;
  }

  /** The first `i` blocks hold only loop commands, each draw right after its own bind and prepare. */
  lemma {:induction false} BlocksShape(f: Fbo, bindMeshTextures: bool, i: nat)
    requires f.Valid() && f.DrawCallsReady() && i <= Count
    ensures OnlyCascadeCommands(Blocks(f.drawCalls[..i], bindMeshTextures))
    ensures DrawsPrepared(Blocks(f.drawCalls[..i], bindMeshTextures), bindMeshTextures)
    decreases i
  {
    if i > 0 {
      var dcs := f.drawCalls[..i];
      assert dcs[..i - 1] == f.drawCalls[..i - 1] && dcs[i - 1] == f.drawCalls[i - 1];
      BlocksShape(f, bindMeshTextures, i - 1);
      BlockShape(f.drawCalls[i - 1], bindMeshTextures, i == Count);
      var prev := Blocks(f.drawCalls[..i - 1], bindMeshTextures);
      var last := CascadeBlock(f.drawCalls[i - 1], bindMeshTextures, i == Count);
      OnlyCascadeConcat(prev, last);
      DrawsPreparedConcat(prev, last, bindMeshTextures);
    }
  }

  /** `render`'s trace around the commands `body` of its cascade loop. */
  function Enclose(f: Fbo, body: seq<Command>): seq<Command>
  {
    Header(f) + body + [EndRenderPass]
  }

  /**
   A loop body that goes from sub-pass 0 to the last one with Count - 1 advances,
   drawing with pipelines made for each cascade's own sub-pass, makes `render`'s
   trace a complete, rule-abiding render pass instance in which every cascade is
   drawn while its own sub-pass is current.
   */
  lemma ValidPassAround(f: Fbo, body: seq<Command>)
    requires Replay(Inside(0), body, Count) == Inside(Count - 1)
    requires CountNextSubpass(body) == Count - 1
    requires PipelinesMatchCascades(body)
    ensures var t := Enclose(f, body);
      && Replay(Outside, t, Count) == Outside
      && CountNextSubpass(t) == Count - 1
      && (forall k :: 0 <= k < |t| && t[k].RenderDepthPipeline? ==>
            && t[k].subpass == Index(t[k].cascade)
            && Replay(Outside, t[..k], Count) == Inside(Index(t[k].cascade)))
  {
    var h := Header(f);
    var t := Enclose(f, body);
    HeaderAdvance(f);
    HeaderRecords(f, Draws);
    SingleStep(Inside(Count - 1), EndRenderPass, Count);
    ReplayConcat(Outside, h, body, Count);
    ReplayConcat(Outside, h + body, [EndRenderPass], Count);
    CountConcat(h, body);
    CountConcat(h + body, [EndRenderPass]);
    PipelinesConcat(h, body);
    PipelinesConcat(h + body, [EndRenderPass]);
    DrawsMatchSubpass(Outside, t, Count);
  }

  /** The header and the end name no cascade: the trace names what its loop body names. */
  lemma RecordsAround(f: Fbo, body: seq<Command>, sel: Selector)
    ensures Recorded(sel, Enclose(f, body)) == Recorded(sel, body)
  {
    var h := Header(f);
    HeaderRecords(f, sel);
    SingleRecord(sel, EndRenderPass);
    RecordedConcat(sel, h, body);
    RecordedConcat(sel, h + body, [EndRenderPass]);
  }

  /**
   Around a loop body of loop commands only, every command between the scissor
   and the end is a loop command, and draws stay right after their bind and prepare.
   */
  lemma ShapeAround(f: Fbo, body: seq<Command>, bindMeshTextures: bool)
    requires OnlyCascadeCommands(body) && DrawsPrepared(body, bindMeshTextures)
    ensures var t := Enclose(f, body);
      && (forall k :: 3 <= k < |t| - 1 ==> IsCascadeCommand(t[k]))
      && DrawsPrepared(t, bindMeshTextures)
  {
    var h := Header(f);
    var t := Enclose(f, body);
    assert forall k :: 3 <= k < |t| - 1 ==> t[k] == body[k - 3];
    assert DrawsPrepared(h, bindMeshTextures);
    assert DrawsPrepared([EndRenderPass], bindMeshTextures);
    DrawsPreparedConcat(h, body, bindMeshTextures);
    DrawsPreparedConcat(h + body, [EndRenderPass], bindMeshTextures);
  }

  /**
   The cascade loop of `render`: it moves from sub-pass 0 to the last one,
   advancing Count - 1 times; it prepares and draws every cascade once, in index
   order, each in its own sub-pass, binding each one's materials first exactly
   when mesh textures are bound at once; each draw comes right after its own
   cascade's bind and prepare, and nothing else is recorded.
   */
  method RecordCascades(f: Fbo, bindMeshTextures: bool) returns (cmds: seq<Command>)
    requires f.Valid() && f.DrawCallsReady()
    ensures Replay(Inside(0), cmds, Count) == Inside(Count - 1)
    ensures CountNextSubpass(cmds) == Count - 1
    ensures PipelinesMatchCascades(cmds)
    ensures Recorded(Draws, cmds) == AllCascades()
    ensures Recorded(Prepares, cmds) == AllCascades()
    ensures Recorded(Binds, cmds) == if bindMeshTextures then AllCascades() else []
    ensures OnlyCascadeCommands(cmds) && DrawsPrepared(cmds, bindMeshTextures)
  {
    cmds := [];
    var i := 0;
    while i < Count
      invariant i <= Count && cmds == Blocks(f.drawCalls[..i], bindMeshTextures)
    {
      assert f.drawCalls[..i + 1][..i] == f.drawCalls[..i];
      cmds := cmds + CascadeBlock(f.drawCalls[i], bindMeshTextures, i == Count - 1);
      i := i + 1;
    }
    FirstCascadesAreAll(Count);
    BlocksAdvance(f, bindMeshTextures, Count);
    BlocksRecord(f, bindMeshTextures, Draws, Count);
    BlocksRecord(f, bindMeshTextures, Prepares, Count);
    BlocksRecord(f, bindMeshTextures, Binds, Count);
    BlocksShape(f, bindMeshTextures, Count);
  }

  /**
   `render`: begin the shadow pass over the whole target with one depth-1.0 clear
   per cascade, set a full viewport and scissor, then per cascade in index order
   (optionally) bind its materials, prepare it and draw its depth pipelines,
   advancing the sub-pass between cascades only, and end the pass.
   */
  method Render(f: Fbo, bindMeshTextures: bool) returns (cmds: seq<Command>)
    requires f.Valid() && f.DrawCallsReady()
    ensures |cmds| >= 4
    ensures cmds[0] == BeginRenderPass(f.renderPass, f.framebuffer, ShadowClears(), FullArea(f.size))
    ensures cmds[1] == SetViewport(FullViewport(f.size)) && cmds[2] == SetScissor(FullArea(f.size))
    ensures cmds[|cmds| - 1] == EndRenderPass
    ensures forall k :: 3 <= k < |cmds| - 1 ==> IsCascadeCommand(cmds[k])
    ensures Replay(Outside, cmds, Count) == Outside
    ensures CountNextSubpass(cmds) == Count - 1
    ensures Recorded(Draws, cmds) == AllCascades()
    ensures Recorded(Prepares, cmds) == AllCascades()
    ensures Recorded(Binds, cmds) == if bindMeshTextures then AllCascades() else []
    ensures DrawsPrepared(cmds, bindMeshTextures)
    ensures forall k :: 0 <= k < |cmds| && cmds[k].RenderDepthPipeline? ==>
      && cmds[k].subpass == Index(cmds[k].cascade)
      && Replay(Outside, cmds[..k], Count) == Inside(Index(cmds[k].cascade))
  {
    var body := RecordCascades(f, bindMeshTextures);
    cmds := Enclose(f, body);
    ValidPassAround(f, body);
    RecordsAround(f, body, Draws);
    RecordsAround(f, body, Prepares);
    RecordsAround(f, body, Binds);
    ShapeAround(f, body, bindMeshTextures);
  }
}

=== FILE: vk.dfy ===
/**
 The slice of the Vulkan object model the shadow render target touches: the
 enumerations and create-info records it fills in, opaque handles, and an
 abstract device that hands out handles, remembers what each live handle was
 created from, logs every create/destroy call, and notes any destroy call that
 does not name a live object of the destroyed kind.
 */
module Vk {

  /** The depth formats the constructor asks the driver about, in preference order. */
  datatype Format = D16Unorm | D32Sfloat | D24UnormS8Uint | D32SfloatS8Uint

  datatype LoadOp = LoadOpLoad | LoadOpClear | LoadOpDontCare

  datatype StoreOp = StoreOpStore | StoreOpDontCare

  datatype ImageLayout =
    | LayoutUndefined
    | DepthStencilAttachmentOptimal
    | DepthStencilReadOnlyOptimal
    | ShaderReadOnlyOptimal

  datatype PipelineStage = FragmentShaderStage | EarlyFragmentTestsStage | LateFragmentTestsStage

  datatype Access = ShaderReadAccess | DepthStencilAttachmentWriteAccess

  datatype BindPoint = GraphicsBindPoint

  datatype ViewType = ViewType2D | ViewType2DArray

  datatype Aspect = DepthAspect

  /** VK_SUBPASS_EXTERNAL, i.e. (~0U). */
  const SubpassExternal: nat := 0xFFFF_FFFF

  /** VK_SAMPLE_COUNT_1_BIT. */
  const SampleCount1: nat := 1

  /** A non-dispatchable handle; Null is VK_NULL_HANDLE. */
  datatype Handle = Null | Live(id: nat)

  datatype AttachmentDescription = AttachmentDescription(
    format: Format,
    samples: nat,
    loadOp: LoadOp,
    storeOp: StoreOp,
    stencilLoadOp: LoadOp,
    stencilStoreOp: StoreOp,
    initialLayout: ImageLayout,
    finalLayout: ImageLayout)

  datatype AttachmentReference = AttachmentReference(attachment: nat, layout: ImageLayout)

  /**
   A sub-pass; `depthStencilRef` is the index, into the render pass's reference
   array, of the reference that `pDepthStencilAttachment` points at.
   */
  datatype SubpassDescription = SubpassDescription(
    bindPoint: BindPoint,
    colorAttachmentCount: nat,
    depthStencilRef: nat)

  datatype SubpassDependency = SubpassDependency(
    srcSubpass: nat,
    dstSubpass: nat,
    srcStage: PipelineStage,
    dstStage: PipelineStage,
    srcAccess: Access,
    dstAccess: Access,
    byRegion: bool)

  datatype RenderPassInfo = RenderPassInfo(
    attachments: seq<AttachmentDescription>,
    references: seq<AttachmentReference>,
    subpasses: seq<SubpassDescription>,
    dependencies: seq<SubpassDependency>)

  datatype ImageViewInfo = ImageViewInfo(
    image: Handle,
    viewType: ViewType,
    format: Format,
    aspect: Aspect,
    baseMipLevel: nat,
    levelCount: nat,
    baseArrayLayer: nat,
    layerCount: nat)

  datatype FramebufferInfo = FramebufferInfo(
    renderPass: Handle,
    attachments: seq<Handle>,
    width: nat,
    height: nat,
    layers: nat)

  /** What a live handle was created from. */
  datatype ObjectInfo =
    | ImageObject(width: nat, height: nat, arrayLayers: nat, imageFormat: Format)
    | ImageViewObject(view: ImageViewInfo)
    | RenderPassObject(pass: RenderPassInfo)
    | FramebufferObject(framebuffer: FramebufferInfo)

  // Which creation and destruction entry points an event belongs to.
  datatype Kind = ImageKind | ImageViewKind | RenderPassKind | FramebufferKind

  function KindOf(o: ObjectInfo): Kind
  {
    match o
    case ImageObject(_, _, _, _) => ImageKind
    case ImageViewObject(_) => ImageViewKind
    case RenderPassObject(_) => RenderPassKind
    case FramebufferObject(_) => FramebufferKind
  }

  datatype Event = Created(kind: Kind, handle: Handle) | Destroyed(kind: Kind, handle: Handle)

  /**
   The device as seen by this subsystem. `live` maps the id of every object that
   exists to what it was created from; `misused` records that some destroy call
   named a handle that was not a live object of the destroyed kind. For a
   non-null handle that is undefined behaviour in Vulkan. Destroying a null
   handle is a valid no-op in Vulkan, but it is flagged here too: this subsystem
   guards every destroy with a null test, so the stricter rule costs nothing.
   */
  datatype Device = Device(live: map<nat, ObjectInfo>, nextId: nat, log: seq<Event>, misused: bool)
  {
    /** Ids are handed out in increasing order, so every live id is below `nextId`. */
    ghost predicate Valid()
    {
      forall id :: id in live ==> id < nextId
    }

    /** The handle the next successful creation returns. */
    function NextHandle(): Handle
    {
      Live(nextId)
    }

    /** A successful vkCreate* call. */
    function Create(info: ObjectInfo): (d: Device)
      ensures Valid() ==> d.Valid() && nextId !in live
      ensures d.live == live[nextId := info] && d.nextId == nextId + 1
      ensures d.log == log + [Created(KindOf(info), NextHandle())] && d.misused == misused
    {
      Device(live[nextId := info], nextId + 1, log + [Created(KindOf(info), NextHandle())], misused)
    }

    /**
     Whether `h` is a live object destroyable with the `kind` entry point. This is
     stricter than Vulkan, which also accepts a null handle.
     */
    predicate CanDestroy(kind: Kind, h: Handle)
    {
      h.Live? && h.id in live && KindOf(live[h.id]) == kind
    }

    /** A vkDestroy* call. */
    function Destroy(kind: Kind, h: Handle): (d: Device)
      ensures d.misused <==> misused || !CanDestroy(kind, h)
      ensures h.Live? ==> d.live == live - {h.id}
      ensures d.log == log + [Destroyed(kind, h)] && d.nextId == nextId
      ensures Valid() ==> d.Valid()
    {
      var ok := CanDestroy(kind, h);
      Device(if h.Live? then live - {h.id} else live, nextId, log + [Destroyed(kind, h)], misused || !ok)
    }
  }
}

=== FILE: wrappers.dfy ===
/** Failure-compatible wrappers used across the shadow-map model. */
module Wrappers {

  /** A value that may be absent (a null pointer, an optional render info). */
  datatype Option<+T> = None | Some(value: T)

  /** The outcome of an operation that throws on failure. */
  datatype Result<+R, +E> = Success(value: R) | Failure(error: E)
}
